=== FILE: README.md ===
# Image background remover: model of the image and request logic

A Dafny model of the integer and string logic of a Flask web application that removes image backgrounds. A saliency network (U²-Net) produces the mask; the model takes that mask as given and covers what the application does with it:

- **`services/background_remover.py`**: the `remove_background` steps after inference.
  - The model-loaded guard.
  - Thresholding the mask into a binary alpha channel.
  - Stacking that alpha onto the original RGB.
  - Choosing the background in `_create_background`: a hex colour, a named colour, white, or an existing background image.
  - `alpha_composite` onto that background.
  - Flattening onto white for a `jpg` output.
  - The output file name.
  - `_hex_to_rgb`.
- **`services/image_processor.py`**:
  - `_create_background` by type.
  - The vertical two-stop gradient `_create_gradient`.
  - The composite and the file name of `change_background`.
  - The flattening and the file name of `compress_image`.
- **`app.py`**:
  - The extension allow-list `allowed_file`.
  - The extension logic of `generate_unique_filename`.
  - The validation order and replies of `upload_file`.
  - The limits, per-file entries and counts of `batch_upload`.

The project is organised as follows:

- Images are grids, `seq<seq<Pixel>>`, with `h` rows of `w` pixels.
- Pixels are byte tuples `Rgb` and `Rgba`.
- Names are `string`.
- Errors that the Python code raises are `Result.Err` values (module `Outcomes`).
- `PyStr` models the Python string operations the code relies on:
  - `lstrip` and clamped slicing;
  - `startswith`;
  - `rsplit(c, 1)`;
  - POSIX `basename`;
  - `lower` and `replace`.
- `Raster` models pixels, `alpha_composite` and the paste onto white.
- `HexColour` models `_hex_to_rgb`. It is defined identically in both services, so the model has one copy. `int(text, 16)` is modelled for the texts of at most two characters that its slices produce: whitespace, sign, then one or two hex digits. Whitespace is what `int()` skips: tab, line feed, vertical tab, form feed, carriage return and space among the ASCII characters, and the Unicode spaces above them. The separators `\x1c`..`\x1f` are not skipped.
- `BackgroundRemover`, `ImageProcessor` and `App` follow the three source files.

Inputs the code reads from outside the program become parameters:

- The decoded source image and the resized mask become `rgb` and `mask` grids of the original size.
- Whether a background image path exists becomes an `Option` holding the file's pixels, already resized. For the processor's `'image'` type an integer value is treated as a file descriptor number, and the `Option` then says whether that descriptor is open. An integer outside the C `int` range -2^31..2^31-1 raises `OverflowError` before any file is looked at.
- `model_loaded` and `MODEL_AVAILABLE` become booleans.
- The timestamp and UUID prefix of a generated name become a `Stamp`.
- `bg_remover.remove_background` as called from `app.py` becomes a function from the saved path to `Done(name)` or `Raised(message)`.

Behaviour of the code that its names and docstrings leave implicit:

- `remove_background` writes every format token other than `jpg` as a 4-channel PNG. It raises no unsupported-format error.
- The gradient is monotone, but not strictly: see `ImageProcessor.GradientNotStrict`.
- A background image replaces the colour background with its own alpha channel. That alpha is not forced to 255, so only colour backgrounds are guaranteed opaque.
- The processor's `'color'` type parses its value as hex and knows no colour names. A name such as `white` raises.
- An unloaded model reaches the single upload route as a raised exception, which gives status 500. Status 503 comes only from services that could not be imported, and only after the upload has been saved.
- `batch_upload` does not check `MODEL_AVAILABLE`. Without the services every allowed file fails with the `NoneType` attribute error, and the batch still succeeds.
- A bad hex literal in `background_color` raises even when an existing background image would replace the colour, because the colour is resolved first.

## Model

| member | source | states |
|---|---|---|
| PyStr.LStrip | services/background_remover.py:209 | the result is a suffix of the input. Exactly the leading run of the character is removed: every removed character is that character, and the result does not start with it |
| PyStr.Slice | services/background_remover.py:210 | a Python slice never fails. It equals the plain slice when in bounds, runs to the end of the string when only its end is past the end, is empty when it starts past the end, and is never longer than requested |
| PyStr.StartsWith | services/background_remover.py:183 | `startswith` holds exactly when the prefix is no longer than the string and agrees with it character by character |
| PyStr.LastIndexOf | app.py:52 | the index of the last occurrence: absent exactly when the character does not occur, and otherwise an index holding the character with none after it |
| PyStr.BeforeLast | services/background_remover.py:160 | `rsplit(c, 1)[0]` is the whole string when `c` is absent. Otherwise it is the prefix ending just before a `c` after which no `c` occurs |
| PyStr.AfterLast | app.py:52 | `rsplit(c, 1)[1]` holds no `c`. The string is the part before, then `c`, then this part |
| PyStr.Basename | services/background_remover.py:160 | the basename is a slash-free suffix of the path, preceded by a slash when the path has one, and the whole path otherwise |
| PyStr.Lower | app.py:52 | lower-casing keeps the length and maps each character by ASCII case folding |
| PyStr.LowerIdempotent | app.py:56 | lower-casing an extension that is already lower-cased changes nothing |
| PyStr.SplitAtLastUnique | app.py:52 | splitting at a separator that is absent from the tail is unique. This makes stem and extension well defined |
| PyStr.BeforeLastOfJoin | services/background_remover.py:160 | `rsplit` of `stem + "." + ext` gives back the stem when the extension has no dot |
| PyStr.BasenameOfJoin | services/background_remover.py:160 | the basename of `os.path.join(folder, name)` is the name when the name has no slash |
| PyStr.Replace | services/image_processor.py:40 | every character of the result comes from the string or from the replacement, so `replace` adds no character of its own |
| PyStr.ReplaceFirstOccurrence | services/image_processor.py:40 | `replace` scans from the left: text in which no occurrence starts is kept, the first occurrence becomes the replacement, and the scan resumes after it. With the next row this fixes the result on every input |
| PyStr.ReplaceWithoutOccurrence | services/image_processor.py:40 | `replace` leaves a string unchanged when the pattern never occurs in it |
| PyStr.ReplaceFinalOccurrence | services/image_processor.py:40 | when the pattern's first character is absent from the stem, `replace` on `stem + pat` rewrites only the final occurrence |
| Raster.Over | services/background_remover.py:156 | per pixel, an opaque source replaces the destination and a transparent source leaves it. Over an opaque destination the result is opaque |
| Raster.BlendAlpha | services/background_remover.py:156 | the blended alpha over an opaque destination is 255 |
| Raster.Fill | services/background_remover.py:181 | `Image.new` has the requested size and holds the given pixel everywhere |
| Raster.Composite | services/background_remover.py:156 | `alpha_composite` keeps the size. Alpha-255 subject pixels stay, alpha-0 ones show the background, and an opaque background gives an opaque result |
| Raster.PasteChannel | services/background_remover.py:166-167 | one channel pasted through mask value `a` onto white is the channel itself at `a = 255` and white at `a = 0` |
| Raster.FlattenOnWhite | services/background_remover.py:163-168 | the paste onto a white canvas keeps the size. Alpha-255 pixels keep their RGB and alpha-0 pixels become white |
| Raster.FlattenIsCompositeOverWhite | services/background_remover.py:166-167 | for an image whose alpha is 0 or 255, the paste onto white equals compositing over an opaque white image and dropping alpha |
| Raster.FlattenOpaque | services/image_processor.py:141-145 | flattening an opaque image keeps every colour |
| HexColour.Strip | services/background_remover.py:210 | the result is a slice of the input with only whitespace before and after it, whitespace being what `int()` skips. It has no whitespace at either end, and text without edge whitespace is left alone |
| HexColour.ParseBase16 | services/background_remover.py:210 | `int(x, 16)` of a slice gives the pair value for two hex digits, the digit value for one, and the signed digit value after `+` or `-` (`-f` is -15). Whitespace on either side of a single digit is skipped (` 7`, `7 ` and a no-break space then `7` give 7). Every other text raises: one holding a character that is neither a hex digit, whitespace nor a sign (`zz`, `0x`), a misplaced sign (`7-`, `--`, `+ `), and empty or all-whitespace text, so the accepted shapes are exactly the five listed. Every value lies in -15..255 |
| HexColour.SignedAndRejectedSlices | services/background_remover.py:210 | the slice `-f` reads as -15 and ` 7` as 7, while `zz` and `0x` raise |
| HexColour.ParseShapes | services/background_remover.py:210 | stripping then parsing skips whitespace on one side of a single hex digit, and accepts only one or two hex digits, a sign then a digit, or a digit with whitespace on one side |
| HexColour.SeparatorIsNotSpace | services/background_remover.py:210 | the slice `\x1c7` raises, because `int()` does not skip the information separators |
| HexColour.NoBreakSpaceIsSpace | services/background_remover.py:210 | a no-break space before or after `7` is skipped, so both slices read as 7 |
| HexColour.Component | services/background_remover.py:210 | one pair value lies in -15..255, and any failure is an invalid-literal error |
| HexColour.HexToRgb | services/background_remover.py:207-210 | the components are in -15..255. Fewer than five characters after the `#`s always raise |
| HexColour.HexDigitsParse | services/background_remover.py:207-210 | `#` followed by six hex digits parses to the three pair values |
| HexColour.HexCodeParses | services/background_remover.py:207-210 | six hex digits after any number of `#`s parse to the three pair values, each in 0..255 |
| HexColour.TrailingTextIgnored | services/background_remover.py:209-210 | characters after the sixth one following the `#`s do not change the result |
| HexColour.PairsOfPrefix | services/background_remover.py:210 | only the first six characters feed the three components |
| HexColour.LStripAppend | services/background_remover.py:209 | stripping the `#`s of `s + tail` strips them from `s` when anything else is left of `s` |
| HexColour.HexRoundTrip | services/background_remover.py:207-210 | formatting any colour as `#rrggbb` and parsing it back returns that colour |
| HexColour.Clip8 | services/background_remover.py:186 | a tuple component in 0..255 is kept, and a negative one becomes 0 |
| HexColour.Ink | services/background_remover.py:186 | `colour + (255,)` is an opaque pixel, equal to the colour when every component is a byte |
| BackgroundRemover.Threshold | services/background_remover.py:140 | the thresholded mask keeps the shape and is binary. A cell is 255 exactly when the raw value is above 128 |
| BackgroundRemover.ThresholdIdempotent | services/background_remover.py:140 | thresholding an already binary mask changes nothing |
| BackgroundRemover.Stack | services/background_remover.py:144 | the RGBA subject has the original size, the original colours and the mask as alpha |
| BackgroundRemover.NamedColour | services/background_remover.py:187-196 | exactly the five names white, black, blue, green and red have a colour, and white is the default white |
| BackgroundRemover.BackgroundPixel | services/background_remover.py:181-196 | a `#` token gives the parsed colour and fails exactly when parsing fails. Any other token succeeds, and an unknown one gives white. Every result is opaque |
| BackgroundRemover.NamedColourTable | services/background_remover.py:187-196 | white, black, blue, green and red give (255,255,255), (0,0,0), (52,152,219), (46,204,113) and (231,76,60) |
| BackgroundRemover.CreateBackground | services/background_remover.py:181-205 | a bad colour raises. Otherwise an existing, non-empty background image path gives that image, and anything else gives an opaque fill of the colour at the requested size |
| BackgroundRemover.OutputName | services/background_remover.py:160-161 | the output name ends in `_processed.` and the format, and holds no slash when the format holds none, so it stays inside the output folder |
| BackgroundRemover.OutputNameOfPath | services/background_remover.py:160 | `<folder>/<stem>.<ext>` gives `<stem>_processed.<format>`: the text after the last dot is dropped |
| BackgroundRemover.OutputNameWithoutDot | services/background_remover.py:160 | a basename without a dot is kept whole before `_processed.<format>` |
| BackgroundRemover.Composed | services/background_remover.py:140-156 | `'transparent'` gives the binary-alpha subject and ignores any background image. Any other option gives mask>128 pixels opaque in the source colour and the rest from the background, and fails exactly when the background does |
| BackgroundRemover.RemoveBackground | services/background_remover.py:117-173 | an unloaded model raises before anything else. The output is named after the input. It is JPEG exactly for `jpg`, flattened onto white; every other token is the composed PNG |
| BackgroundRemover.JpegPixels | services/background_remover.py:163-169 | a `jpg` output shows the source colour where the mask is above 128. Elsewhere it shows white when transparent, or else the solid background colour |
| BackgroundRemover.DefaultOptionsKeepSubject | services/background_remover.py:113-160 | with `options=None` the defaults apply: the subject alone is saved as a PNG named `<stem>_processed.png`, whatever background file exists |
| BackgroundRemover.ParseBlue | services/background_remover.py:183-186 | `#3498DB` parses to (52, 152, 219) and gives an opaque background of that colour |
| BackgroundRemover.HexBackgroundShowsThrough | services/background_remover.py:149-156 | with background `#3498DB`, every pixel whose mask is at most 128 becomes (52, 152, 219, 255) |
| ImageProcessor.TruncDiv | services/image_processor.py:86-88 | `int()` of an exact quotient truncates toward zero: the result times the divisor lies within one divisor of the dividend, on the side toward zero |
| ImageProcessor.GradientValue | services/image_processor.py:84-88 | a row's channel value is the blend `c1 * (h - i) + c2 * i` divided by `h` and truncated toward zero |
| ImageProcessor.ToByte | services/image_processor.py:89 | storing into the `uint8` array succeeds exactly for values in 0..255 and keeps the value |
| ImageProcessor.GradientPixel | services/image_processor.py:84-89 | storing a row succeeds exactly when all three channel values lie in 0..255; the stored pixel is opaque and carries those values |
| ImageProcessor.GradientRows | services/image_processor.py:84-89 | rows `i..h-1` succeed exactly when every row's pixel fits. Each then has `w` copies of that row's pixel |
| ImageProcessor.Gradient | services/image_processor.py:82-89 | the gradient has `h` rows of `w` pixels and is opaque. Each row is one colour, and it fails exactly when some row's value does not fit a byte |
| ImageProcessor.FieldColour | services/image_processor.py:78-79 | a string configuration value is parsed as hex, and any other JSON value raises |
| ImageProcessor.CreateGradient | services/image_processor.py:75-91 | a non-object configuration raises. A `color1` that is not a string or does not parse raises, then the same for `color2`. Otherwise the result is the gradient between the two parsed colours, with the defaults for missing keys |
| ImageProcessor.GradientFirstRow | services/image_processor.py:84-89 | row 0 equals `color1` exactly |
| ImageProcessor.GradientNumeratorBetween | services/image_processor.py:85-88 | for byte colours the truncation is a floor division. The numerator lies between `c1*h` and `c2*h` |
| ImageProcessor.GradientBetween | services/image_processor.py:84-88 | every value lies between the two end colours |
| ImageProcessor.GradientMonotone | services/image_processor.py:84-88 | values never decrease down the image when `c1 <= c2`, and never increase when `c2 <= c1` |
| ImageProcessor.GradientNotStrict | services/image_processor.py:84-88 | two consecutive rows can be equal, so the monotonicity is not strict |
| ImageProcessor.GradientRowsSkip | services/image_processor.py:84-89 | after a stored row the filling goes on, and the first later row that does not fit raises with its own error |
| ImageProcessor.GradientNegativeEndFits | services/image_processor.py:76-89 | from red 255 to red -15 over two rows every value fits (255, then 120), so the gradient is built |
| ImageProcessor.GradientNegativeEndRaises | services/image_processor.py:76-89 | from red 0 to red -15 over two rows the second value is -7, and the store raises with it |
| ImageProcessor.GradientPixelFits | services/image_processor.py:84-89 | two byte colours give a storable pixel for every row |
| ImageProcessor.GradientOfBytes | services/image_processor.py:82-89 | two byte colours give a complete gradient whose first row is `color1` |
| ImageProcessor.GradientOfHexCodes | services/image_processor.py:75-91 | with six-digit hex colours, or the defaults, the gradient never fails. It is the gradient between the parsed colours |
| ImageProcessor.DefaultColour1Parses | services/image_processor.py:78 | the default `color1`, `#667eea`, is (102, 126, 234) |
| ImageProcessor.DefaultColour2Parses | services/image_processor.py:79 | the default `color2`, `#764ba2`, is (118, 75, 162) |
| ImageProcessor.CreateBackground | services/image_processor.py:49-73 | `'color'` gives an opaque fill of the parsed hex colour, and raises for a bad literal or a non-string value. `'image'` gives the existing file or white for a path. An integer is treated as a descriptor number: outside the C `int` range it raises `OverflowError`; otherwise white when it is not open, and it raises when it is. Any other JSON value raises. `'gradient'` delegates. Any other type is white. Every type but `'image'` is opaque |
| ImageProcessor.DescriptorRange | services/image_processor.py:57-64 | descriptor 2^31-1, when not open, falls back to white, while 2^31 and -2^31-1 raise `OverflowError` |
| ImageProcessor.ColourTypeRejectsNames | services/image_processor.py:52-55 | `'color'` with `white` raises on the literal `wh`: this copy knows no colour names |
| ImageProcessor.ChangedName | services/image_processor.py:40 | a basename without `.png` is kept, and a type without a slash gives a name without one, so the file stays in the output folder |
| ImageProcessor.ChangedNameEveryPng | services/image_processor.py:40 | every `.png` is replaced, not only the last: `<folder>/<stem>.png.png` becomes `<stem>_bg_<type>.png_bg_<type>.png` |
| ImageProcessor.ChangeBackground | services/image_processor.py:29-44 | succeeds exactly when the background does. The result has the image's size; alpha-255 pixels stay and alpha-0 pixels show the background. It is opaque for non-image types and named by the `.png` replacement |
| ImageProcessor.ReplacePngSuffix | services/image_processor.py:40 | in `<stem>.png` with a dot-free stem, only the final `.png` is replaced |
| ImageProcessor.ChangedNameOfPng | services/image_processor.py:40 | `<folder>/<stem>.png` becomes `<stem>_bg_<type>.png` |
| ImageProcessor.ChangedNameWithoutPng | services/image_processor.py:40 | a name without `.png` comes back unchanged |
| ImageProcessor.CompressImage | services/image_processor.py:134-149 | an RGBA image is flattened onto white: alpha-255 pixels keep their RGB and alpha-0 pixels are white. An RGB image is kept. The name has `.png` replaced by `_compressed.jpg` |
| ImageProcessor.CompressedNameOfPng | services/image_processor.py:138 | `<folder>/<stem>.png` becomes `<stem>_compressed.jpg` |
| App.AllowedFile | app.py:50-52 | a name without a dot is refused, and an allowed name has at least four characters; `AllowedFileSplit` gives the full characterisation |
| App.AfterLastOfJoin | app.py:52 | the text after the last dot of `stem.ext` is `ext` when `ext` has no dot |
| App.AllowedFileSplit | app.py:50-52 | a name is allowed exactly when it is `stem.ext` with a dot-free `ext` whose lower-case form is png, jpg, jpeg or webp |
| App.AllowedJoin | app.py:50-52 | for `stem.ext` with a dot-free `ext`, the check depends on `ext` alone |
| App.UpperCaseAllowed | app.py:50-52 | `X.PNG` is accepted |
| App.OtherExtensionRefused | app.py:50-52 | `x.bmp` is refused |
| App.EmptyExtensionRefused | app.py:50-52 | `x.` is refused |
| App.LastDotCounts | app.py:50-52 | only the text after the last dot counts: `x.png.exe` is refused |
| App.Extension | app.py:56 | the generated extension has no dot. It is the lower-cased text after the last dot, or `png` for a name without one |
| App.UniqueName | app.py:54-59 | the generated name has a dot, and the text after its last dot is the generated extension |
| App.UniqueNameExtension | app.py:54-59 | the generated name ends in `.` followed by the lower-cased original extension, or by `png` |
| App.UniqueNameAllowed | app.py:50-59 | a generated name passes the allow-list exactly when the original did, or the original had no dot |
| App.UniqueNameKeepsExtension | app.py:56 | for an original with a dot, the generated name is allowed exactly when the original is |
| App.UniqueNameDefaultsToPng | app.py:56 | an original without a dot gives an allowed `.png` name |
| App.AllowedExtensionPlain | app.py:35 | the extension of an allowed name is on the list and holds no slash |
| App.UploadOutputName | app.py:82-101 | an allowed upload saved in the upload folder comes back from the remover as `<time>_<id>_processed.<format>` |
| App.UploadFile | app.py:70-120 | 400 for a missing part, then an empty name, then a disallowed extension, before saving. An allowed file is saved under its generated name. 503 comes exactly when the services are missing, after saving. Otherwise the reply follows what the remover returned or raised |
| App.UploadStatus | app.py:70-120 | status 400 exactly when no allowed file was given. 503 and 200 only after the file was saved, and 200 only with the services present |
| App.EntryOf | app.py:141-161 | a disallowed file yields no entry and an allowed one exactly one, under its own name. Without the services it fails with the `NoneType` message. Otherwise a raised exception gives a failure with that exception's message, a returned name gives a success, and a success names the generated file the remover was called on |
| App.FlatMapAppend | app.py:141-161 | the entries of two runs of files are the entries of each run in turn: one file's outcome does not affect the others |
| App.Entries | app.py:141-161 | a batch yields at most one entry per file, and the originals of the entries are the allowed file names in input order |
| App.EntriesStep | app.py:141-161 | each loop step appends the entries of the current file to those of the files before it |
| App.EntriesFollowFiles | app.py:141-161 | the originals of the results are exactly the allowed file names, in input order |
| App.CountSucceeded | app.py:167 | the processed count never exceeds the number of results |
| App.CountSucceededAppend | app.py:167 | the success count of two runs of results is the sum of their counts |
| App.NoneSucceeded | app.py:167 | results that all failed count no success |
| App.UnavailableBatch | app.py:141-161 | without the services every entry fails with the `NoneType` message and the processed count is 0 |
| App.BatchUpload | app.py:126-168 | an empty batch and one of more than 10 files are rejected before any file is looked at. Otherwise the results are the per-file entries in order, `total` is the number of files, and `processed` ≤ `len(results)` ≤ `total` |

## Left out

- U²-Net inference, device selection and the float normalisation of `_normalize` and `_preprocess_image`: an opaque network and float numerics. The mask enters as a grid of 0..255 values.
- The min-max mask normalisation and the bilinear resizing of the mask and of a background image: float arithmetic and library resampling. Grids enter at the original size.
- PIL decoding and encoding, JPEG quality settings, `os.path.exists`, `os.path.getsize` and file saves: I/O. A background file is an `Option` of its pixels, and a save error is not modelled.
- Raster.Over: for partial alpha it uses an idealised rounded blend, which may differ from PIL's own rounding by one. The remover only produces alpha 0 or 255, where the formula is exact, and its contract speaks only of alpha 0 and 255.
- Raster.PasteChannel: for partial alpha it rounds the exact blend to the nearest value, which may differ from PIL's own rounding by one. Its contract, and `FlattenIsCompositeOverWhite`, speak only of alpha 0 and 255.
- PyStr.Basename: models POSIX `basename`, which splits at `/` only. On Windows `basename` also splits at the backslash, which would matter for a client-supplied `original_file` holding a backslash.
- HexColour.Clip8: assumes that PIL clips an out-of-range tuple component (only a negative one, from a slice such as `-f`, can occur).
- ImageProcessor.ToByte: storing a value outside 0..255 into the `uint8` array is modelled as an error, as NumPy 2 raises. Earlier NumPy versions wrap around.
- ImageProcessor.GradientValue: the float ratio `i / h` is idealised as exact arithmetic, truncated toward zero. Float rounding can differ by one at rare edges.
- HexColour.ParseBase16: Python's `int()` first turns every non-ASCII decimal digit (Unicode category Nd, such as Arabic-Indic or fullwidth digits) into its ASCII digit, so such a slice parses; the model rejects it. Only the ASCII hex digits are modelled; Unicode whitespace is modelled.
- PyStr.Lower: ASCII letters only. Python lower-cases every Unicode letter, and some characters change length.
- `apply_filter` and `resize_image`: thin wrappers over PIL filters and LANCZOS resampling.
- `compress_image` for images in modes other than `RGBA` and `RGB`, such as `P` and `L`: those modes are never produced by the services.
- Flask plumbing: routing, `url_for`, the JSON bodies, file sizes and timestamps in replies, request options passed through to the remover, the gallery listing, the download, delete and health endpoints, the 413/404/500 error handlers, and the `change-background` route wrapper.
- A `file` part whose filename is `None`: a missing filename is treated as absent. In the batch loop, the truthiness of a file part coincides with a non-empty filename, which the allow-list already refuses.
- The exception wrapping `Error processing image: ...` and `Error changing background: ...`: the model keeps which failure occurred, not its message text. In `app.py` the message is whatever the remover raised, modelled by the `remove` parameter.
- `static/js/main.js`, `download_model.py` and `config.py`: browser UI, network downloads and configuration constants.

=== FILE: app.dfy ===
/** `App`: the request logic of the web application around the services —
    the extension allow-list, the generated upload names, and the
    validation and bookkeeping of the single and batch upload routes.

    The clock and the UUID generator are inputs (a `Stamp` per saved file),
    and `remove_background` is a function parameter from the saved upload
    path to what the call returned or raised; the form options it is called
    with are part of that function.
 */
module App {
  import opened Outcomes
  import opened PyStr
  import BackgroundRemover

  /** The extensions the application accepts for uploads. */
  const AllowedExtensions: set<string> := {"png", "jpg", "jpeg", "webp"}

  const UploadFolder: string := "static/uploads"

  /** `allowed_file(filename)`: the name has a dot, and the lower-cased text
      after its last dot is an allowed extension. */
  predicate AllowedFile(name: string)
    ensures AllowedFile(name) ==> '.' in name && 4 <= |name|
  {
    '.' in name && Lower(AfterLast(name, '.')) in AllowedExtensions
  }

  /** The text after the last dot of `stem + "." + ext` is `ext` when `ext`
      has no dot. */
  lemma AfterLastOfJoin(stem: string, ext: string)
    requires '.' !in ext
    ensures AfterLast(stem + "." + ext, '.') == ext
  {
    var s := stem + "." + ext;
    assert s == stem + ['.'] + ext;
    SplitAtLastUnique(BeforeLast(s, '.'), AfterLast(s, '.'), stem, ext, '.');
  }

  /** A name is allowed exactly when it splits at a dot into a stem and an
      extension without a dot whose lower-case form is on the list. */
  lemma AllowedFileSplit(name: string)
    ensures AllowedFile(name) <==>
              exists stem, ext :: name == stem + "." + ext && '.' !in ext && Lower(ext) in AllowedExtensions
  {
    if AllowedFile(name) {
      var stem, ext := BeforeLast(name, '.'), AfterLast(name, '.');
      assert name == stem + "." + ext;
    }
    if exists stem, ext :: name == stem + "." + ext && '.' !in ext && Lower(ext) in AllowedExtensions {
      var stem, ext :| name == stem + "." + ext && '.' !in ext && Lower(ext) in AllowedExtensions;
      AfterLastOfJoin(stem, ext);
    }
  }

  /** For a name of the form `stem.ext` with no dot in `ext`, the check
      is on `ext` alone. */
  lemma AllowedJoin(stem: string, ext: string)
    requires '.' !in ext
    ensures AllowedFile(stem + "." + ext) <==> Lower(ext) in AllowedExtensions
  {
    AfterLastOfJoin(stem, ext);
  }

  /** The check ignores case: `X.PNG` is accepted. */
  lemma UpperCaseAllowed(stem: string)
    ensures AllowedFile(stem + ".PNG")
  {
    assert stem + ".PNG" == stem + "." + "PNG";
    AfterLastOfJoin(stem, "PNG");
    AllowedByExtension(stem + ".PNG", "PNG");
    assert Lower("PNG") == "png" by {
      assert LowerChar('P') == 'p' && LowerChar('N') == 'n' && LowerChar('G') == 'g';
    }
  }

  /** An extension off the list is refused: `x.bmp`. */
  lemma OtherExtensionRefused(stem: string)
    ensures !AllowedFile(stem + ".bmp")
  {
    assert stem + ".bmp" == stem + "." + "bmp";
    AfterLastOfJoin(stem, "bmp");
    AllowedByExtension(stem + ".bmp", "bmp");
    assert Lower("bmp") == "bmp" by {
      assert LowerChar('b') == 'b' && LowerChar('m') == 'm' && LowerChar('p') == 'p';
    }
  }

  /** A name ending in a dot has an empty extension, which is refused: `x.`. */
  lemma EmptyExtensionRefused(stem: string)
    ensures !AllowedFile(stem + ".")
  {
    assert stem + "." == stem + "." + "";
    AfterLastOfJoin(stem, "");
  }

  /** Only the text after the last dot counts: `photo.png.exe` is refused. */
  lemma LastDotCounts(stem: string)
    ensures !AllowedFile(stem + ".png.exe")
  {
    assert stem + ".png.exe" == (stem + ".png") + "." + "exe";
    AfterLastOfJoin(stem + ".png", "exe");
    AllowedByExtension(stem + ".png.exe", "exe");
    assert Lower("exe") == "exe" by {
      assert LowerChar('e') == 'e' && LowerChar('x') == 'x';
    }
  }

  /** The formatted local time and the first eight characters of a random UUID
      as they were when a name was generated. */
  datatype Stamp = Stamp(time: string, id: string)

  /** `generate_unique_filename`'s extension: the lower-cased text after the
      last dot, or `png` for a name without one. */
  function Extension(name: string): (ext: string)
    ensures '.' !in ext
    ensures '.' in name ==> ext == Lower(AfterLast(name, '.'))
    ensures '.' !in name ==> ext == "png"
  {
    if '.' in name then
      var e := AfterLast(name, '.');
      assert forall k :: 0 <= k < |e| ==> Lower(e)[k] != '.';
      Lower(e)
    else "png"
  }

  /** `generate_unique_filename(original_filename)`: `<time>_<id>.<ext>`.
      The generated extension is what a later split at the last dot of the
      name finds. */
  function UniqueName(original: string, stamp: Stamp): (name: string)
    ensures '.' in name && AfterLast(name, '.') == Extension(original)
  {
    var stem := stamp.time + "_" + stamp.id;
    AfterLastOfJoin(stem, Extension(original));
    stem + "." + Extension(original)
  }

  /** A generated name ends in a dot and the original's lower-cased
      extension, which is then also the text after its last dot. */
  lemma UniqueNameExtension(original: string, stamp: Stamp)
    ensures var name := UniqueName(original, stamp);
            '.' in name && AfterLast(name, '.') == Extension(original)
    ensures '.' in original ==>
              AfterLast(UniqueName(original, stamp), '.') == Lower(AfterLast(original, '.'))
    ensures '.' !in original ==> AfterLast(UniqueName(original, stamp), '.') == "png"
  {
  }

  /** A generated name passes the allow-list exactly when the original did,
      or when the original had no dot and so became a `.png`. */
  lemma UniqueNameAllowed(original: string, stamp: Stamp)
    ensures AllowedFile(UniqueName(original, stamp)) <==> ('.' !in original || AllowedFile(original))
  {
    if '.' in original {
      UniqueNameKeepsExtension(original, stamp);
    } else {
      UniqueNameDefaultsToPng(original, stamp);
    }
  }

  lemma UniqueNameKeepsExtension(original: string, stamp: Stamp)
    requires '.' in original
    ensures AllowedFile(UniqueName(original, stamp)) <==> AllowedFile(original)
  {
    var ext := AfterLast(original, '.');
    UniqueNameExtension(original, stamp);
    AllowedByExtension(UniqueName(original, stamp), Lower(ext));
    AllowedByExtension(original, ext);
    LowerIdempotent(ext);
  }

  lemma UniqueNameDefaultsToPng(original: string, stamp: Stamp)
    requires '.' !in original
    ensures AllowedFile(UniqueName(original, stamp))
  {
    UniqueNameExtension(original, stamp);
    AllowedByExtension(UniqueName(original, stamp), "png");
    assert Lower("png") == "png";
  }

  /** A name with a dot is allowed exactly when the lower-cased text after
      its last dot is on the list. */
  lemma AllowedByExtension(name: string, ext: string)
    requires '.' in name && AfterLast(name, '.') == ext
    ensures AllowedFile(name) <==> Lower(ext) in AllowedExtensions
  {
  }

  /** The timestamp (digits and `_`) and the UUID prefix (hex digits) hold
      neither a dot nor a slash. */
  predicate WellFormedStamp(stamp: Stamp) {
    '.' !in stamp.time && '/' !in stamp.time && '.' !in stamp.id && '/' !in stamp.id
  }

  /** An allowed upload saved under its generated name comes out of the
      remover as `<time>_<id>_processed.<format>`. */
  lemma UploadOutputName(original: string, stamp: Stamp, format: string)
    requires AllowedFile(original) && WellFormedStamp(stamp)
    ensures BackgroundRemover.OutputName(UploadFolder + "/" + UniqueName(original, stamp), format) ==
            stamp.time + "_" + stamp.id + "_processed." + format
  {
    AllowedExtensionPlain(original);
    StampedOutputName(UniqueName(original, stamp), stamp, Extension(original), format);
  }

  /** The extension of an allowed name is on the list, so it has no slash. */
  lemma AllowedExtensionPlain(original: string)
    requires AllowedFile(original)
    ensures Extension(original) in AllowedExtensions && '/' !in Extension(original)
  {
    var ext := Extension(original);
    assert ext in AllowedExtensions by {
      AllowedByExtension(original, AfterLast(original, '.'));
    }
    assert ext == "png" || ext == "jpg" || ext == "jpeg" || ext == "webp";
  }

  /** The output name of `<time>_<id>.<ext>` in the upload folder. */
  lemma StampedOutputName(name: string, stamp: Stamp, ext: string, format: string)
    requires WellFormedStamp(stamp) && '.' !in ext && '/' !in ext
    requires name == stamp.time + "_" + stamp.id + "." + ext
    ensures BackgroundRemover.OutputName(UploadFolder + "/" + name, format) ==
            stamp.time + "_" + stamp.id + "_processed." + format
  {
    var stem := stamp.time + "_" + stamp.id;
    assert '/' !in stem by {
      assert forall k :: 0 <= k < |stem| ==>
               stem[k] == if k < |stamp.time| then stamp.time[k]
                          else if k == |stamp.time| then '_' else stamp.id[k - |stamp.time| - 1];
    }
    assert UploadFolder + "/" + name == UploadFolder + "/" + stem + "." + ext by {
      AppendAssoc(UploadFolder + "/", stem + ".", ext);
      AppendAssoc(UploadFolder + "/", stem, ".");
    }
    BackgroundRemover.OutputNameOfPath(UploadFolder, stem, ext, format);
  }

  /** What a call of `remove_background` did: returned a processed name or
      raised an exception with a message. */
  datatype Outcome = Done(filename: string) | Raised(message: string)

  const NoFileProvided: string := "No file provided"
  const NoFileSelected: string := "No file selected"
  const InvalidFileType: string := "Invalid file type. Allowed: PNG, JPG, JPEG, WEBP"

  /** The reply of `upload_file`. */
  datatype UploadReply =
    | Rejected(message: string)                        // 400, nothing saved
    | Unavailable(saved: string)                       // 503, the upload saved
    | Processed(saved: string, processed: string)      // 200
    | Failed(saved: string, message: string)           // 500, str(e) of the raised exception
  {
    function Status(): nat {
      match this
      case Rejected(_) => 400
      case Unavailable(_) => 503
      case Processed(_, _) => 200
      case Failed(_, _) => 500
    }

    /** The name the upload was saved under, if it was saved. */
    function SavedAs(): Option<string> {
      if Rejected? then None else Some(saved)
    }
  }

  /** `upload_file()`: `part` is the `file` part's filename, `None` when the
      request has no such part; `available` is whether the services could
      be imported. */
  function UploadFile(part: Option<string>, stamp: Stamp, available: bool,
                      remove: string -> Outcome): (r: UploadReply)
    ensures part.None? ==> r == Rejected(NoFileProvided)
    ensures part == Some("") ==> r == Rejected(NoFileSelected)
    ensures part.Some? && part.value != "" && !AllowedFile(part.value) ==> r == Rejected(InvalidFileType)
    ensures r.SavedAs().Some? <==> part.Some? && AllowedFile(part.value)
    ensures r.SavedAs().Some? ==> r.SavedAs().value == UniqueName(part.value, stamp)
    ensures r.Unavailable? <==> r.SavedAs().Some? && !available
    ensures r.Processed? ==> available && remove(UploadFolder + "/" + r.saved) == Done(r.processed)
    ensures r.Failed? ==> available && remove(UploadFolder + "/" + r.saved) == Raised(r.message)
  {
    match part
    case None => Rejected(NoFileProvided)
    case Some(name) =>
      if name == "" then Rejected(NoFileSelected)
      else if !AllowedFile(name) then Rejected(InvalidFileType)
      else
        var saved := UniqueName(name, stamp);
        if !available then Unavailable(saved)
        else
          match remove(UploadFolder + "/" + saved)
          case Done(processed) => Processed(saved, processed)
          case Raised(message) => Failed(saved, message)
  }

  /** The status codes: 400 exactly for the rejected requests, and 503 only
      for a request whose file has already been saved. */
  lemma UploadStatus(part: Option<string>, stamp: Stamp, available: bool, remove: string -> Outcome)
    ensures var r := UploadFile(part, stamp, available, remove);
            (r.Status() == 400 <==> !(part.Some? && AllowedFile(part.value))) &&
            (r.Status() == 503 ==> r.SavedAs().Some?) &&
            (r.Status() == 200 ==> available && r.SavedAs().Some?)
  {
  }

  /** One file of a batch: its filename and the stamp its generated name
      would use. */
  datatype FilePart = FilePart(filename: string, stamp: Stamp)

  /** One entry of `results`. */
  datatype Entry =
    | Succeeded(original: string, saved: string, processed: string)
    | Failure(original: string, error: string)

  /** `str(e)` for the call on `bg_remover` when the services could not be
      imported and `bg_remover` is `None`. */
  const NoneTypeMessage: string := "'NoneType' object has no attribute 'remove_background'"

  /** The entries one file adds: none for a file that is not allowed, else
      one, built from that file alone. */
  function EntryOf(f: FilePart, available: bool, remove: string -> Outcome): (e: seq<Entry>)
    ensures |e| == (if AllowedFile(f.filename) then 1 else 0)
    ensures |e| == 1 ==> e[0].original == f.filename
    ensures |e| == 1 && !available ==> e[0] == Failure(f.filename, NoneTypeMessage)
    ensures var out := remove(UploadFolder + "/" + UniqueName(f.filename, f.stamp));
            |e| == 1 && available && out.Raised? ==> e[0] == Failure(f.filename, out.message)
    ensures var out := remove(UploadFolder + "/" + UniqueName(f.filename, f.stamp));
            |e| == 1 && available && out.Done? ==> e[0].Succeeded?
    ensures |e| == 1 && e[0].Succeeded? ==>
              e[0].saved == UniqueName(f.filename, f.stamp) &&
              remove(UploadFolder + "/" + e[0].saved) == Done(e[0].processed)
  {
    if !AllowedFile(f.filename) then []
    else
      var saved := UniqueName(f.filename, f.stamp);
      if !available then [Failure(f.filename, NoneTypeMessage)]
      else
        match remove(UploadFolder + "/" + saved)
        case Done(processed) => [Succeeded(f.filename, saved, processed)]
        case Raised(message) => [Failure(f.filename, message)]
  }

  /** The concatenation of `f(x)` for the `x` of `xs`, in order. */
  function FlatMap<A, B>(xs: seq<A>, f: A -> seq<B>): seq<B> {
    if xs == [] then [] else f(xs[0]) + FlatMap(xs[1..], f)
  }

  /** Flattening two consecutive runs gives the two results one after the
      other: what `f` does on one element changes nothing for the later ones. */
  lemma {:induction false} FlatMapAppend<A, B>(a: seq<A>, b: seq<A>, f: A -> seq<B>)
    ensures FlatMap(a + b, f) == FlatMap(a, f) + FlatMap(b, f)
    decreases |a|
  {
    if a != [] {
      assert (a + b)[0] == a[0];
      assert (a + b)[1..] == a[1..] + b;
      FlatMapAppend(a[1..], b, f);
    } else {
      assert a + b == b;
    }
  }

  /** The `results` list a batch of files builds, in input order; each
      file's entries depend on that file alone (see `FlatMapAppend`). */
  function Entries(files: seq<FilePart>, available: bool, remove: string -> Outcome): (e: seq<Entry>)
    ensures |e| <= |files|
    ensures Originals(e) == AllowedNames(files)
  {
    EntriesFollowFiles(files, available, remove);
    EntriesAtMostOne(files, available, remove);
    FlatMap(files, EntryStep(available, remove))
  }

  function EntryStep(available: bool, remove: string -> Outcome): FilePart -> seq<Entry> {
    f => EntryOf(f, available, remove)
  }

  /** One more file adds its own entries after those of the files before it. */
  lemma EntriesStep(files: seq<FilePart>, i: nat, available: bool, remove: string -> Outcome)
    requires i < |files|
    ensures Entries(files[..i + 1], available, remove) ==
            Entries(files[..i], available, remove) + EntryOf(files[i], available, remove)
  {
    assert files[..i + 1] == files[..i] + [files[i]];
    FlatMapAppend(files[..i], [files[i]], EntryStep(available, remove));
    assert FlatMap([files[i]], EntryStep(available, remove)) == EntryOf(files[i], available, remove);
  }

  /** The name of a file that passes the allow-list; nothing for one that
      does not. */
  function NameIfAllowed(f: FilePart): seq<string> {
    if AllowedFile(f.filename) then [f.filename] else []
  }

  /** The names of the allowed files, in order. */
  function AllowedNames(files: seq<FilePart>): seq<string> {
    FlatMap(files, NameIfAllowed)
  }

  /** A flattening of steps that each give at most one value is no longer
      than its input. */
  lemma {:induction false} FlatMapAtMostOne<A, B>(xs: seq<A>, f: A -> seq<B>)
    requires forall x :: |f(x)| <= 1
    ensures |FlatMap(xs, f)| <= |xs|
    decreases |xs|
  {
    if xs != [] {
      FlatMapAtMostOne(xs[1..], f);
    }
  }

  function Originals(entries: seq<Entry>): (names: seq<string>)
    ensures |names| == |entries|
    ensures forall k :: 0 <= k < |entries| ==> names[k] == entries[k].original
  {
    seq(|entries|, k requires 0 <= k < |entries| => entries[k].original)
  }

  /** The original names of the entries of a flattening are the flattening
      of the original names of each step. */
  lemma {:induction false} FlatMapOriginals(files: seq<FilePart>, step: FilePart -> seq<Entry>,
                                            names: FilePart -> seq<string>)
    requires forall f :: Originals(step(f)) == names(f)
    ensures Originals(FlatMap(files, step)) == FlatMap(files, names)
    decreases |files|
  {
    if files != [] {
      var head, tail := step(files[0]), FlatMap(files[1..], step);
      assert Originals(head + tail) == Originals(head) + Originals(tail);
      FlatMapOriginals(files[1..], step, names);
    }
  }

  /** Each allowed file yields exactly one entry and the others none, in
      input order. */
  lemma EntriesFollowFiles(files: seq<FilePart>, available: bool, remove: string -> Outcome)
    ensures Originals(FlatMap(files, EntryStep(available, remove))) == AllowedNames(files)
  {
    var step := EntryStep(available, remove);
    forall f
      ensures Originals(step(f)) == NameIfAllowed(f)
    {
      assert step(f) == EntryOf(f, available, remove);
      EntryOriginal(f, available, remove);
    }
    FlatMapOriginals(files, step, NameIfAllowed);
  }

  /** The entries of one file carry its name exactly when it is allowed. */
  lemma EntryOriginal(f: FilePart, available: bool, remove: string -> Outcome)
    ensures Originals(EntryOf(f, available, remove)) == NameIfAllowed(f)
  {
    var e := EntryOf(f, available, remove);
    if AllowedFile(f.filename) {
      assert |e| == 1 && e[0].original == f.filename;
    }
  }

  /** A batch yields at most one entry per file. */
  lemma EntriesAtMostOne(files: seq<FilePart>, available: bool, remove: string -> Outcome)
    ensures |FlatMap(files, EntryStep(available, remove))| <= |files|
  {
    forall f
      ensures |EntryStep(available, remove)(f)| <= 1
    {
      assert EntryStep(available, remove)(f) == EntryOf(f, available, remove);
    }
    FlatMapAtMostOne(files, EntryStep(available, remove));
  }

  /** The number of successful entries. */
  function CountSucceeded(entries: seq<Entry>): (n: nat)
    ensures n <= |entries|
  {
    if entries == [] then 0
    else (if entries[0].Succeeded? then 1 else 0) + CountSucceeded(entries[1..])
  }

  lemma {:induction false} CountSucceededAppend(a: seq<Entry>, b: seq<Entry>)
    ensures CountSucceeded(a + b) == CountSucceeded(a) + CountSucceeded(b)
    decreases |a|
  {
    if a != [] {
      assert (a + b)[0] == a[0];
      assert (a + b)[1..] == a[1..] + b;
      CountSucceededAppend(a[1..], b);
    } else {
      assert a + b == b;
    }
  }

  /** All entries fail with `message`. */
  predicate AllFailWith(entries: seq<Entry>, message: string) {
    forall k :: 0 <= k < |entries| ==> entries[k] == Failure(entries[k].original, message)
  }

  /** A flattening of steps that only ever fail with `message` fails
      throughout. */
  lemma {:induction false} FlatMapAllFail(files: seq<FilePart>, step: FilePart -> seq<Entry>, message: string)
    requires forall f :: AllFailWith(step(f), message)
    ensures AllFailWith(FlatMap(files, step), message)
    decreases |files|
  {
    if files != [] {
      var head, tail := step(files[0]), FlatMap(files[1..], step);
      FlatMapAllFail(files[1..], step, message);
      assert AllFailWith(head, message);
      assert forall k :: 0 <= k < |head + tail| ==>
               (head + tail)[k] == if k < |head| then head[k] else tail[k - |head|];
    }
  }

  /** Entries that all fail count no success. */
  lemma {:induction false} NoneSucceeded(entries: seq<Entry>, message: string)
    requires AllFailWith(entries, message)
    ensures CountSucceeded(entries) == 0
    decreases |entries|
  {
    if entries != [] {
      assert entries[0] == Failure(entries[0].original, message);
      NoneSucceeded(entries[1..], message);
    }
  }

  /** Without the services every allowed file fails with the same message,
      and nothing is processed. */
  lemma UnavailableBatch(files: seq<FilePart>, remove: string -> Outcome)
    ensures AllFailWith(Entries(files, false, remove), NoneTypeMessage)
    ensures CountSucceeded(Entries(files, false, remove)) == 0
  {
    var step := EntryStep(false, remove);
    forall f
      ensures AllFailWith(step(f), NoneTypeMessage)
    {
      assert step(f) == EntryOf(f, false, remove);
    }
    FlatMapAllFail(files, step, NoneTypeMessage);
    NoneSucceeded(Entries(files, false, remove), NoneTypeMessage);
  }

  const NoFilesProvided: string := "No files provided"
  const TooManyFiles: string := "Maximum 10 files allowed per batch"
  const MaxBatch: nat := 10

  /** The reply of `batch_upload`. */
  datatype BatchReply =
    | BatchRejected(message: string)                                    // 400
    | BatchDone(results: seq<Entry>, total: nat, processed: nat)        // 200

  /** `batch_upload()`: an empty batch and one of more than ten files are
      rejected before any file is looked at; otherwise every file is tried
      in turn and the counts are taken over the results. */
  method BatchUpload(files: seq<FilePart>, available: bool, remove: string -> Outcome)
    returns (reply: BatchReply)
    ensures |files| == 0 ==> reply == BatchRejected(NoFilesProvided)
    ensures |files| > MaxBatch ==> reply == BatchRejected(TooManyFiles)
    ensures 0 < |files| <= MaxBatch ==>
              reply.BatchDone? && reply.results == Entries(files, available, remove)
    ensures reply.BatchDone? ==>
              reply.total == |files| &&
              reply.processed == CountSucceeded(reply.results) &&
              reply.processed <= |reply.results| <= reply.total
  {
    if |files| == 0 {
      return BatchRejected(NoFilesProvided);
    }
    if |files| > MaxBatch {
      return BatchRejected(TooManyFiles);
    }
    var results: seq<Entry> := [];
    var i := 0;
    while i < |files|
      invariant 0 <= i <= |files|
      invariant results == Entries(files[..i], available, remove)
    {
      EntriesStep(files, i, available, remove);
      results := results + EntryOf(files[i], available, remove);
      i := i + 1;
    }
    assert files[..i] == files;
    reply := BatchDone(results, |files|, CountSucceeded(results));
  }
}

=== FILE: background_remover.dfy ===
/** The integer steps of `BackgroundRemoverService.remove_background`: the
    model-loaded guard, the threshold that turns the resized saliency mask
    into a binary alpha channel, the RGBA subject, the choice of background
    in `_create_background`, the composite, the JPEG flattening and the
    output name.

    The saliency network and the float steps before the threshold are not
    modelled: the mask enters as a grid of 0..255 values already at the
    original size. The background image file enters as its decoded content
    already resized to that size, or `None` when the path does not exist.
 */
module BackgroundRemover {
  import opened Outcomes
  import opened PyStr
  import opened Raster
  import opened HexColour

  /** The options dict: `background_color`, `background_image`, `output_format`. */
  datatype Options = Options(backgroundColor: string, backgroundImage: Option<string>, outputFormat: string)

  /** The values `options.get` falls back to when a key is absent. */
  const DefaultOptions: Options := Options("transparent", None, "png")

  /** What `remove_background` saves: a 4-channel PNG or a 3-channel JPEG. */
  datatype Encoded = Png(rgba: seq<seq<Rgba>>) | Jpeg(rgb: seq<seq<Rgb>>)

  datatype Output = Output(filename: string, image: Encoded)

  predicate IsBinaryMask(m: seq<seq<Byte>>) {
    forall i, j :: 0 <= i < |m| && 0 <= j < |m[i]| ==> m[i][j] == 0 || m[i][j] == 255
  }

  /** The threshold that turns the saliency mask into a binary alpha
      channel: a value above 128 is foreground (255), anything else is
      background (0). */
  function Threshold(mask: seq<seq<Byte>>): (m: seq<seq<Byte>>)
    ensures |m| == |mask| && forall i :: 0 <= i < |mask| ==> |m[i]| == |mask[i]|
    ensures IsBinaryMask(m)
    ensures forall i, j :: 0 <= i < |mask| && 0 <= j < |mask[i]| ==>
              (m[i][j] == 255 <==> mask[i][j] > 128)
  {
    seq(|mask|, i requires 0 <= i < |mask| =>
      seq(|mask[i]|, j requires 0 <= j < |mask[i]| => if mask[i][j] > 128 then 255 else 0))
  }

  /** Thresholding a mask that is already binary changes nothing. */
  lemma ThresholdIdempotent(m: seq<seq<Byte>>)
    requires IsBinaryMask(m)
    ensures Threshold(m) == m
  {
    var t := Threshold(m);
    forall i | 0 <= i < |m|
      ensures t[i] == m[i]
    {
    }
  }

  /** The RGBA subject: the original colours with the mask as alpha. */
  function Stack(rgb: seq<seq<Rgb>>, alpha: seq<seq<Byte>>, w: nat, h: nat): (img: seq<seq<Rgba>>)
    requires HasSize(rgb, w, h) && HasSize(alpha, w, h)
    ensures HasSize(img, w, h)
    ensures forall i, j :: 0 <= i < h && 0 <= j < w ==>
              img[i][j].Colour() == rgb[i][j] && img[i][j].a == alpha[i][j]
  {
    seq(h, i requires 0 <= i < h => seq(w, j requires 0 <= j < w =>
      Rgba(rgb[i][j].r, rgb[i][j].g, rgb[i][j].b, alpha[i][j])))
  }

  /** The names `_create_background` recognises. */
  const ColourNames: set<string> := {"white", "black", "blue", "green", "red"}

  /** The named colours `_create_background` knows: exactly the five names
      have a colour, and `white` is the same white as the default. */
  function NamedColour(name: string): (c: Option<Rgb>)
    ensures c.Some? <==> name in ColourNames
    ensures name == "white" ==> c == Some(White)
  {
    if name == "white" then Some(Rgb(255, 255, 255))
    else if name == "black" then Some(Rgb(0, 0, 0))
    else if name == "blue" then Some(Rgb(52, 152, 219))
    else if name == "green" then Some(Rgb(46, 204, 113))
    else if name == "red" then Some(Rgb(231, 76, 60))
    else None
  }

  /** The fill colour `_create_background` chooses: a token starting with `#`
      is parsed as hex (and a bad literal raises), a known name gives its
      colour, and anything else leaves the initial white. */
  function BackgroundPixel(colour: string): (r: Result<Rgba>)
    ensures r.Ok? ==> r.value.a == 255
    ensures StartsWith(colour, "#") ==>
              (r.Ok? <==> HexToRgb(colour).Ok?) &&
              (r.Ok? ==> r.value == Ink(HexToRgb(colour).value))
    ensures !StartsWith(colour, "#") ==> r.Ok?
    ensures !StartsWith(colour, "#") && NamedColour(colour).None? ==> r == Ok(Opaque(White))
  {
    if StartsWith(colour, "#") then
      var t :- HexToRgb(colour);
      Ok(Ink(t))
    else
      match NamedColour(colour)
      case Some(c) => Ok(Opaque(c))
      case None => Ok(Opaque(White))
  }

  /** The five names give the colours of the source's table. */
  lemma NamedColourTable()
    ensures BackgroundPixel("white") == Ok(Rgba(255, 255, 255, 255))
    ensures BackgroundPixel("black") == Ok(Rgba(0, 0, 0, 255))
    ensures BackgroundPixel("blue") == Ok(Rgba(52, 152, 219, 255))
    ensures BackgroundPixel("green") == Ok(Rgba(46, 204, 113, 255))
    ensures BackgroundPixel("red") == Ok(Rgba(231, 76, 60, 255))
  {
    StartsWithChar("white", '#');
    StartsWithChar("black", '#');
    StartsWithChar("blue", '#');
    StartsWithChar("green", '#');
    StartsWithChar("red", '#');
  }

  /** The background image is used when its option is present, is a
      non-empty path, and names an existing file. */
  predicate UsesImage(opts: Options, file: Option<seq<seq<Rgba>>>) {
    opts.backgroundImage.Some? && opts.backgroundImage.value != "" && file.Some?
  }

  /** `_create_background(size, colour, options)`. The colour is resolved
      first, so a bad hex literal raises even when a background image would
      replace it; an existing background image replaces the colour. */
  function CreateBackground(w: nat, h: nat, colour: string, opts: Options,
                            file: Option<seq<seq<Rgba>>>): (r: Result<seq<seq<Rgba>>>)
    requires file.Some? ==> HasSize(file.value, w, h)
    ensures r.Ok? ==> HasSize(r.value, w, h)
    ensures BackgroundPixel(colour).Err? ==> r.Err?
    ensures BackgroundPixel(colour).Ok? && UsesImage(opts, file) ==> r == Ok(file.value)
    ensures BackgroundPixel(colour).Ok? && !UsesImage(opts, file) ==>
              r == Ok(Fill(BackgroundPixel(colour).value, w, h)) && AllOpaque(r.value)
  {
    var p :- BackgroundPixel(colour);
    if UsesImage(opts, file) then Ok(file.value) else Ok(Fill(p, w, h))
  }

  /** The saved name of `remove_background`: the input's basename without
      its last extension, then `_processed.` and the format token. It ends
      in that suffix, and a format without a slash gives a name without one,
      so the file stays in the output folder. */
  function OutputName(imagePath: string, format: string): (name: string)
    ensures var suffix := "_processed." + format;
            |suffix| <= |name| && name[|name| - |suffix|..] == suffix
    ensures '/' !in format ==> '/' !in name
  {
    var stem := Stem(imagePath);
    ProcessedSuffix(stem, format);
    stem + ("_processed." + format)
  }

  /** A stem followed by `_processed.` and a format ends in that suffix, and
      holds no slash when neither the stem nor the format does. */
  lemma ProcessedSuffix(stem: string, format: string)
    ensures var suffix := "_processed." + format;
            |suffix| <= |stem + suffix| && (stem + suffix)[|stem + suffix| - |suffix|..] == suffix
    ensures '/' !in stem && '/' !in format ==> '/' !in stem + ("_processed." + format)
  {
    AppendFacts("_processed.", format, '/');
    AppendFacts(stem, "_processed." + format, '/');
  }

  /** The basename of a path without its last extension, which holds no
      slash. */
  function Stem(path: string): (stem: string)
    ensures '/' !in stem
  {
    var base := Basename(path);
    var stem := BeforeLast(base, '.');
    PrefixKeepsOut(base, |stem|, '/');
    stem
  }

  /** The output name drops the extension of the basename and appends
      `_processed.` and the format token. */
  lemma OutputNameOfPath(folder: string, stem: string, ext: string, format: string)
    requires '/' !in stem && '/' !in ext && '.' !in ext
    ensures OutputName(folder + "/" + stem + "." + ext, format) == stem + "_processed." + format
  {
    assert folder + "/" + stem + "." + ext == folder + "/" + (stem + "." + ext);
    BasenameOfJoin(folder, stem + "." + ext);
    BeforeLastOfJoin(stem, '.', ext);
  }

  /** A basename without a dot is kept whole. */
  lemma OutputNameWithoutDot(folder: string, name: string, format: string)
    requires '/' !in name && '.' !in name
    ensures OutputName(folder + "/" + name, format) == name + "_processed." + format
  {
    BasenameOfJoin(folder, name);
  }

  /** The RGBA image before saving: the subject alone for `'transparent'`,
      otherwise the subject composited over the chosen background. Pixels
      whose mask value is above 128 keep the source colour at full opacity;
      the others are transparent, or show the background. */
  function Composed(rgb: seq<seq<Rgb>>, mask: seq<seq<Byte>>, w: nat, h: nat, opts: Options,
                    file: Option<seq<seq<Rgba>>>): (r: Result<seq<seq<Rgba>>>)
    requires HasSize(rgb, w, h) && HasSize(mask, w, h)
    requires file.Some? ==> HasSize(file.value, w, h)
    ensures r.Ok? ==> HasSize(r.value, w, h)
    ensures opts.backgroundColor == "transparent" ==>
              r.Ok? && BinaryAlpha(r.value) &&
              forall i, j :: 0 <= i < h && 0 <= j < w ==>
                r.value[i][j] == SubjectPixel(rgb[i][j], mask[i][j])
    ensures opts.backgroundColor != "transparent" ==>
              var bg := CreateBackground(w, h, opts.backgroundColor, opts, file);
              (r.Ok? <==> bg.Ok?) &&
              (r.Ok? ==> forall i, j :: 0 <= i < h && 0 <= j < w ==>
                 r.value[i][j] == (if mask[i][j] > 128 then Opaque(rgb[i][j]) else bg.value[i][j]))
    ensures opts.backgroundColor != "transparent" && !UsesImage(opts, file) && r.Ok? ==>
              AllOpaque(r.value)
  {
    var subject := Stack(rgb, Threshold(mask), w, h);
    if opts.backgroundColor != "transparent" then
      var bg :- CreateBackground(w, h, opts.backgroundColor, opts, file);
      Ok(Composite(bg, subject, w, h))
    else
      Ok(subject)
  }

  /** `remove_background(image_path, options)` after inference: `rgb` is the
      original image and `mask` the resized saliency mask. A `jpg` output is
      the composed image flattened onto white; every other format token is
      written as a 4-channel PNG. */
  function RemoveBackground(modelLoaded: bool, imagePath: string, rgb: seq<seq<Rgb>>,
                            mask: seq<seq<Byte>>, w: nat, h: nat, opts: Options,
                            file: Option<seq<seq<Rgba>>>): (r: Result<Output>)
    requires HasSize(rgb, w, h) && HasSize(mask, w, h)
    requires file.Some? ==> HasSize(file.value, w, h)
    ensures !modelLoaded ==> r == Err(ModelNotLoaded)
    ensures modelLoaded ==> (r.Ok? <==> Composed(rgb, mask, w, h, opts, file).Ok?)
    ensures r.Ok? ==> r.value.filename == OutputName(imagePath, opts.outputFormat)
    ensures r.Ok? ==> (r.value.image.Jpeg? <==> opts.outputFormat == "jpg")
    ensures r.Ok? && r.value.image.Png? ==> r.value.image.rgba == Composed(rgb, mask, w, h, opts, file).value
    ensures r.Ok? && r.value.image.Jpeg? ==>
              var img := Composed(rgb, mask, w, h, opts, file).value;
              HasSize(r.value.image.rgb, w, h) &&
              forall i, j :: 0 <= i < h && 0 <= j < w ==>
                (img[i][j].a == 255 ==> r.value.image.rgb[i][j] == img[i][j].Colour()) &&
                (img[i][j].a == 0 ==> r.value.image.rgb[i][j] == White)
  {
    if !modelLoaded then Err(ModelNotLoaded)
    else
      var img :- Composed(rgb, mask, w, h, opts, file);
      var name := OutputName(imagePath, opts.outputFormat);
      if opts.outputFormat == "jpg" then Ok(Output(name, Jpeg(FlattenOnWhite(img, w, h))))
      else Ok(Output(name, Png(img)))
  }

  /** The subject pixel for one source colour and one raw mask value. */
  function SubjectPixel(c: Rgb, m: Byte): Rgba {
    Rgba(c.r, c.g, c.b, if m > 128 then 255 else 0)
  }

  /** A `jpg` output is flattened onto white: foreground pixels keep the source
      colour, and background pixels are white (transparent option) or the
      solid background colour. */
  lemma JpegPixels(imagePath: string, rgb: seq<seq<Rgb>>, mask: seq<seq<Byte>>, w: nat, h: nat,
                   opts: Options, file: Option<seq<seq<Rgba>>>)
    requires HasSize(rgb, w, h) && HasSize(mask, w, h)
    requires file.Some? ==> HasSize(file.value, w, h)
    requires opts.outputFormat == "jpg" && !UsesImage(opts, file)
    requires BackgroundPixel(opts.backgroundColor).Ok?
    ensures var r := RemoveBackground(true, imagePath, rgb, mask, w, h, opts, file);
            var back := if opts.backgroundColor == "transparent" then White
                        else BackgroundPixel(opts.backgroundColor).value.Colour();
            r.Ok? && r.value.image.Jpeg? &&
            forall i, j :: 0 <= i < h && 0 <= j < w ==>
              r.value.image.rgb[i][j] == (if mask[i][j] > 128 then rgb[i][j] else back)
  {
    var r := RemoveBackground(true, imagePath, rgb, mask, w, h, opts, file);
    var img := Composed(rgb, mask, w, h, opts, file).value;
    if opts.backgroundColor != "transparent" {
      var bg := CreateBackground(w, h, opts.backgroundColor, opts, file).value;
      assert bg == Fill(BackgroundPixel(opts.backgroundColor).value, w, h);
    }
  }

  /** Called with `options=None`, every key takes its default: the subject
      alone is saved as a PNG named `<stem>_processed.png`. */
  lemma DefaultOptionsKeepSubject(imagePath: string, rgb: seq<seq<Rgb>>, mask: seq<seq<Byte>>,
                                  w: nat, h: nat, file: Option<seq<seq<Rgba>>>)
    requires HasSize(rgb, w, h) && HasSize(mask, w, h)
    requires file.Some? ==> HasSize(file.value, w, h)
    ensures var r := RemoveBackground(true, imagePath, rgb, mask, w, h, DefaultOptions, file);
            r.Ok? && r.value.filename == OutputName(imagePath, "png") && r.value.image.Png? &&
            forall i, j :: 0 <= i < h && 0 <= j < w ==>
              r.value.image.rgba[i][j] == SubjectPixel(rgb[i][j], mask[i][j])
  {
  }

  /** `_hex_to_rgb('#3498DB')` is (52, 152, 219). */
  lemma ParseBlue()
    ensures HexToRgb("#3498DB") == Ok(Triple(52, 152, 219))
    ensures BackgroundPixel("#3498DB") == Ok(Rgba(52, 152, 219, 255))
  {
    assert HexToRgb("#3498DB") == Ok(Triple(52, 152, 219)) by {
      HexLiteral("3498DB", "#3498DB", 52, 152, 219);
    }
    StartsWithChar("#3498DB", '#');
  }

  /** The background `#3498DB` shows as (52, 152, 219) wherever the mask is
      at most 128. */
  lemma HexBackgroundShowsThrough(imagePath: string, rgb: seq<seq<Rgb>>, mask: seq<seq<Byte>>,
                                  w: nat, h: nat)
    requires HasSize(rgb, w, h) && HasSize(mask, w, h)
    ensures var opts := Options("#3498DB", None, "png");
            var r := RemoveBackground(true, imagePath, rgb, mask, w, h, opts, None);
            r.Ok? && r.value.image.Png? &&
            forall i, j :: 0 <= i < h && 0 <= j < w && mask[i][j] <= 128 ==>
              r.value.image.rgba[i][j] == Rgba(52, 152, 219, 255)
  {
    var opts := Options("#3498DB", None, "png");
    ParseBlue();
    var bg := CreateBackground(w, h, "#3498DB", opts, None);
    assert bg == Ok(Fill(Rgba(52, 152, 219, 255), w, h));
  }
}

=== FILE: hexcolour.dfy ===
/** `_hex_to_rgb`, which both services define identically: the leading
    `#`s are dropped, then the two-character slices at 0, 2 and 4 are each
    read as a base-16 integer. Python's `int(text, 16)` is modelled for the
    texts of at most two characters that those slices produce: surrounding
    whitespace, an optional sign, then one or two hex digits.
 */
module HexColour {
  import opened Outcomes
  import opened PyStr
  import opened Raster

  /** The tuple `_hex_to_rgb` returns. Python ints: a slice such as `"-f"`
      makes a component negative. */
  datatype Triple = Triple(r: int, g: int, b: int)

  predicate IsHexDigit(c: char) {
    '0' <= c <= '9' || 'a' <= c <= 'f' || 'A' <= c <= 'F'
  }

  function DigitValue(c: char): (v: nat)
    requires IsHexDigit(c)
    ensures v < 16
  {
    if '0' <= c <= '9' then c as int - '0' as int
    else if 'a' <= c <= 'f' then c as int - 'a' as int + 10
    else c as int - 'A' as int + 10
  }

  /** The lower-case digit for a value below 16, as `'%02x'` writes it. */
  function DigitChar(v: nat): (c: char)
    requires v < 16
    ensures IsHexDigit(c) && DigitValue(c) == v
  {
    if v < 10 then ('0' as int + v) as char else ('a' as int + v - 10) as char
  }

  /** The characters Python's `int()` skips around a literal. Of the ASCII
      characters these are only tab, line feed, vertical tab, form feed,
      carriage return and space: the separators `\x1c`..`\x1f`, which
      `str.isspace` accepts, are kept and make the literal invalid. A
      non-ASCII Unicode space is first turned into a plain space, so it is
      skipped as well. */
  predicate IsPySpace(c: char) {
    9 <= c as int <= 13 || c == ' ' || IsUnicodeSpace(c)
  }

  /** The Unicode whitespace above the ASCII range: next line, no-break
      space, ogham space mark, the spaces U+2000..U+200A, line and paragraph
      separators, narrow no-break space, medium mathematical space and
      ideographic space. */
  predicate IsUnicodeSpace(c: char) {
    c as int == 0x85 || c as int == 0xA0 || c as int == 0x1680 ||
    0x2000 <= c as int <= 0x200A || c as int == 0x2028 || c as int == 0x2029 ||
    c as int == 0x202F || c as int == 0x205F || c as int == 0x3000
  }

  /** `t` is the slice of `s` starting at `k`, and everything of `s` outside
      that slice is whitespace. */
  predicate TrimmedAt(s: string, t: string, k: nat) {
    k + |t| <= |s| && t == s[k..k + |t|] &&
    (forall i :: 0 <= i < k ==> IsPySpace(s[i])) &&
    (forall i :: k + |t| <= i < |s| ==> IsPySpace(s[i]))
  }

  /** The length of the run of whitespace that starts `s`. */
  function LeadingSpaces(s: string): (n: nat)
    ensures n <= |s|
    ensures forall i :: 0 <= i < n ==> IsPySpace(s[i])
    ensures n < |s| ==> !IsPySpace(s[n])
  {
    if |s| > 0 && IsPySpace(s[0]) then
      var m := LeadingSpaces(s[1..]);
      assert forall i :: 0 < i < m + 1 ==> s[i] == s[1..][i - 1];
      m + 1
    else 0
  }

  /** The length of the run of whitespace that ends `s`. */
  function TrailingSpaces(s: string): (n: nat)
    ensures n <= |s|
    ensures forall i :: |s| - n <= i < |s| ==> IsPySpace(s[i])
    ensures n < |s| ==> !IsPySpace(s[|s| - 1 - n])
  {
    if |s| > 0 && IsPySpace(s[|s| - 1]) then
      var front := s[..|s| - 1];
      var m := TrailingSpaces(front);
      assert forall i :: |front| - m <= i < |front| ==> s[i] == front[i];
      m + 1
    else 0
  }

  /** Whitespace removed at both ends: the result is a slice of the input
      with only whitespace around it, and has no whitespace at either end. */
  function Strip(s: string): (t: string)
    ensures |t| <= |s|
    ensures exists k: nat :: TrimmedAt(s, t, k)
    ensures t == [] || (!IsPySpace(t[0]) && !IsPySpace(t[|t| - 1]))
    ensures s == [] || (!IsPySpace(s[0]) && !IsPySpace(s[|s| - 1])) ==> t == s
  {
    var lo := LeadingSpaces(s);
    if lo == |s| then
      assert TrimmedAt(s, [], lo);
      []
    else
      var hi := |s| - TrailingSpaces(s);
      assert lo < hi;
      assert TrimmedAt(s, s[lo..hi], lo);
      s[lo..hi]
  }

  /** When every character left by stripping satisfies `IsLiteralChar`,
      so does every character of the input, as the rest is whitespace. */
  lemma StripLiteralChars(s: string)
    ensures (forall k :: 0 <= k < |Strip(s)| ==> IsLiteralChar(Strip(s)[k])) ==>
              forall k :: 0 <= k < |s| ==> IsLiteralChar(s[k])
  {
    var t := Strip(s);
    var k: nat :| TrimmedAt(s, t, k);
    if forall i :: 0 <= i < |t| ==> IsLiteralChar(t[i]) {
      forall i | 0 <= i < |s|
        ensures IsLiteralChar(s[i])
      {
        if k <= i < k + |t| {
          assert s[i] == t[i - k];
        }
      }
    }
  }

  /** Text that is all whitespace strips to nothing. */
  lemma StripAllSpace(s: string)
    requires forall k :: 0 <= k < |s| ==> IsPySpace(s[k])
    ensures Strip(s) == []
  {
  }

  /** Stripping a two-character text with whitespace on one side only
      keeps the other character. */
  lemma StripOneSide(s: string)
    requires |s| == 2
    ensures IsPySpace(s[0]) && !IsPySpace(s[1]) ==> Strip(s) == s[1..]
    ensures !IsPySpace(s[0]) && IsPySpace(s[1]) ==> Strip(s) == s[..1]
  {
    if IsPySpace(s[0]) && !IsPySpace(s[1]) {
      assert LeadingSpaces(s[1..]) == 0;
      assert LeadingSpaces(s) == 1;
      assert TrailingSpaces(s) == 0;
    }
    if !IsPySpace(s[0]) && IsPySpace(s[1]) {
      assert LeadingSpaces(s) == 0;
      assert TrailingSpaces(s[..1]) == 0;
      assert TrailingSpaces(s) == 1;
    }
  }

  predicate IsSign(c: char) {
    c == '+' || c == '-'
  }

  /** The texts of at most two characters that `int(text, 16)` accepts: one
      or two hex digits, a sign then a hex digit, or one hex digit with
      whitespace before or after it. */
  predicate IsAcceptedShape(text: string) {
    (|text| == 1 && IsHexDigit(text[0])) ||
    (|text| == 2 && IsHexDigit(text[0]) && IsHexDigit(text[1])) ||
    (|text| == 2 && IsSign(text[0]) && IsHexDigit(text[1])) ||
    (|text| == 2 && IsPySpace(text[0]) && IsHexDigit(text[1])) ||
    (|text| == 2 && IsHexDigit(text[0]) && IsPySpace(text[1]))
  }

  /** A hex digit is neither whitespace nor a sign. */
  lemma HexDigitIsPlain(c: char)
    requires IsHexDigit(c)
    ensures !IsPySpace(c) && !IsSign(c)
  {
  }

  /** Whitespace on one side of a hex digit is skipped, and every text the
      stripped parse accepts has one of the accepted shapes. */
  lemma ParseShapes(text: string)
    requires |text| <= 2
    ensures |text| == 2 && IsPySpace(text[0]) && IsHexDigit(text[1]) ==>
              ParseStripped(Strip(text)) == Some(DigitValue(text[1]))
    ensures |text| == 2 && IsHexDigit(text[0]) && IsPySpace(text[1]) ==>
              ParseStripped(Strip(text)) == Some(DigitValue(text[0]))
    ensures ParseStripped(Strip(text)).Some? ==> IsAcceptedShape(text)
  {
    if |text| == 2 {
      StripOneSide(text);
      if IsHexDigit(text[0]) { HexDigitIsPlain(text[0]); }
      if IsHexDigit(text[1]) { HexDigitIsPlain(text[1]); }
      if IsPySpace(text[0]) && IsPySpace(text[1]) {
        StripAllSpace(text);
      }
    } else if |text| == 1 && IsPySpace(text[0]) {
      StripAllSpace(text);
    }
  }

  /** A character that can be part of a base-16 literal of at most two
      characters: a hex digit, whitespace or a sign. */
  predicate IsLiteralChar(c: char) {
    IsHexDigit(c) || IsPySpace(c) || c == '+' || c == '-'
  }

  /** Python's `int(text, 16)` for a text of at most two characters: after
      stripping whitespace, one or two hex digits, or a sign followed by one
      hex digit; anything else (the empty text, `"0x"`, `"_f"`, `"zz"`) is a
      ValueError, which the model writes as `None`. Longer texts never reach it: the slices are two wide. */
  function ParseBase16(text: string): (v: Option<int>)
    requires |text| <= 2
    ensures v.Some? ==> -15 <= v.value <= 255
    ensures |text| == 2 && IsHexDigit(text[0]) && IsHexDigit(text[1]) ==>
              v == Some(16 * DigitValue(text[0]) + DigitValue(text[1]))
    ensures |text| == 1 && IsHexDigit(text[0]) ==> v == Some(DigitValue(text[0]))
    ensures |text| == 2 && text[0] == '-' && IsHexDigit(text[1]) ==> v == Some(-(DigitValue(text[1]) as int))
    ensures |text| == 2 && text[0] == '+' && IsHexDigit(text[1]) ==> v == Some(DigitValue(text[1]))
    ensures v.Some? ==> forall k :: 0 <= k < |text| ==> IsLiteralChar(text[k])
    ensures (forall k :: 0 <= k < |text| ==> IsPySpace(text[k])) ==> v.None?
    ensures text == [] ==> v.None?
    ensures |text| == 2 && IsPySpace(text[0]) && IsHexDigit(text[1]) ==> v == Some(DigitValue(text[1]))
    ensures |text| == 2 && IsHexDigit(text[0]) && IsPySpace(text[1]) ==> v == Some(DigitValue(text[0]))
    ensures v.Some? ==> IsAcceptedShape(text)
  {
    ParseShapes(text);
    StripLiteralChars(text);
    assert (forall k :: 0 <= k < |text| ==> IsPySpace(text[k])) ==> Strip(text) == [] by {
      if forall k :: 0 <= k < |text| ==> IsPySpace(text[k]) {
        StripAllSpace(text);
      }
    }
    ParseStripped(Strip(text))
  }

  /** A sign makes a one-digit slice negative, and a slice holding a letter
      beyond `f` is rejected. */
  lemma SignedAndRejectedSlices()
    ensures ParseBase16("-f") == Some(-15)
    ensures ParseBase16(" 7") == Some(7)
    ensures ParseBase16("zz") == None
    ensures ParseBase16("0x") == None
  {
    assert !IsLiteralChar('z') && !IsLiteralChar('x');
    assert "zz"[0] == 'z' && "0x"[1] == 'x';
    assert IsHexDigit("-f"[1]) && IsHexDigit(" 7"[1]);
    assert ParseBase16(" 7") == Some(7) by {
      assert Strip(" 7") == "7" by {
        assert LeadingSpaces(" 7") == 1;
        assert TrailingSpaces(" 7") == 0;
      }
    }
  }

  /** An information separator is not whitespace to `int()`, so it makes
      the slice invalid. */
  lemma SeparatorIsNotSpace()
    ensures ParseBase16("\U{1c}7") == None
  {
    assert "\U{1c}7"[0] == '\U{1c}';
    assert !IsAcceptedShape("\U{1c}7");
  }

  /** A no-break space is skipped like a plain space, before or after the
      digit. */
  lemma NoBreakSpaceIsSpace()
    ensures ParseBase16("\U{a0}7") == Some(7)
    ensures ParseBase16("7\U{a0}") == Some(7)
  {
    assert "\U{a0}7"[0] == '\U{a0}' && "\U{a0}7"[1] == '7';
    assert "7\U{a0}"[0] == '7' && "7\U{a0}"[1] == '\U{a0}';
  }

  /** The literal once the whitespace around it is gone: one or two hex
      digits, or a sign followed by one hex digit. */
  function ParseStripped(t: string): (v: Option<int>)
    requires |t| <= 2
    ensures v.Some? ==> -15 <= v.value <= 255
    ensures v.Some? ==> t != [] && forall k :: 0 <= k < |t| ==> IsLiteralChar(t[k])
  {
    if |t| == 1 && IsHexDigit(t[0]) then Some(DigitValue(t[0]))
    else if |t| == 2 && IsHexDigit(t[0]) && IsHexDigit(t[1]) then
      Some(16 * DigitValue(t[0]) + DigitValue(t[1]))
    else if |t| == 2 && t[0] == '+' && IsHexDigit(t[1]) then Some(DigitValue(t[1]))
    else if |t| == 2 && t[0] == '-' && IsHexDigit(t[1]) then
      var d: int := DigitValue(t[1]);
      Some(-d)
    else None
  }

  /** The base-16 value of the two-character slice at `i`. */
  function Component(h: string, i: nat): (r: Result<int>)
    ensures r.Ok? ==> -15 <= r.value <= 255
    ensures r.Err? ==> r.error.InvalidLiteral?
  {
    var text := Slice(h, i, i + 2);
    match ParseBase16(text)
    case Some(v) => Ok(v)
    case None => Err(InvalidLiteral(text))
  }

  /** `_hex_to_rgb(colour)`: the components are parsed in order, and the first
      slice that is not a base-16 literal raises. */
  function HexToRgb(colour: string): (r: Result<Triple>)
    ensures r.Ok? ==> -15 <= r.value.r <= 255 && -15 <= r.value.g <= 255 && -15 <= r.value.b <= 255
    ensures |LStrip(colour, '#')| < 5 ==> r.Err?
  {
    ParsePairs(LStrip(colour, '#'))
  }

  /** The three components read from the text left after the `#`s. */
  function ParsePairs(h: string): (r: Result<Triple>)
    ensures r.Ok? ==> -15 <= r.value.r <= 255 && -15 <= r.value.g <= 255 && -15 <= r.value.b <= 255
    ensures |h| < 5 ==> r.Err?
  {
    var red :- Component(h, 0);
    var green :- Component(h, 2);
    var blue :- Component(h, 4);
    Ok(Triple(red, green, blue))
  }

  /** One leading `#` before a text that does not start with `#` is all
      that `lstrip` removes. */
  lemma HashThenText(h: string)
    requires |h| > 0 && h[0] != '#'
    ensures HexToRgb("#" + h) == ParsePairs(h)
  {
    assert ("#" + h)[1..] == h;
  }

  /** `#` followed by six hex digits parses to the three pair values. */
  lemma HexDigitsParse(h: string)
    requires |h| == 6 && forall k :: 0 <= k < 6 ==> IsHexDigit(h[k])
    ensures HexToRgb("#" + h) == Ok(Triple(PairValue(h, 0), PairValue(h, 2), PairValue(h, 4)))
  {
    HashThenText(h);
    PairComponent(h, 0);
    PairComponent(h, 2);
    PairComponent(h, 4);
  }

  /** A `#` and six hex digits whose pairs have the values `r`, `g`, `b`. */
  lemma HexLiteral(h: string, colour: string, r: int, g: int, b: int)
    requires colour == "#" + h && |h| == 6
    requires IsHexDigit(h[0]) && IsHexDigit(h[1]) && IsHexDigit(h[2])
    requires IsHexDigit(h[3]) && IsHexDigit(h[4]) && IsHexDigit(h[5])
    requires 16 * DigitValue(h[0]) + DigitValue(h[1]) == r
    requires 16 * DigitValue(h[2]) + DigitValue(h[3]) == g
    requires 16 * DigitValue(h[4]) + DigitValue(h[5]) == b
    ensures HexToRgb(colour) == Ok(Triple(r, g, b))
  {
    HexDigitsParse(h);
  }

  /** Six hex digits after the `#`s. */
  predicate IsHexCode(colour: string) {
    var h := LStrip(colour, '#');
    |h| >= 6 && forall k :: 0 <= k < 6 ==> IsHexDigit(h[k])
  }

  /** The value of the two-digit pair starting at `i`. */
  function PairValue(h: string, i: nat): (v: nat)
    requires i + 2 <= |h| && IsHexDigit(h[i]) && IsHexDigit(h[i + 1])
    ensures v < 256
  {
    16 * DigitValue(h[i]) + DigitValue(h[i + 1])
  }

  /** A colour whose first six characters after the `#`s are hex digits parses
      to the three pair values, each a byte; whatever follows the sixth digit
      plays no part. */
  lemma HexCodeParses(colour: string)
    requires IsHexCode(colour)
    ensures var h := LStrip(colour, '#');
            HexToRgb(colour) == Ok(Triple(PairValue(h, 0), PairValue(h, 2), PairValue(h, 4)))
    ensures 0 <= HexToRgb(colour).value.r < 256
    ensures 0 <= HexToRgb(colour).value.g < 256
    ensures 0 <= HexToRgb(colour).value.b < 256
  {
    var h := LStrip(colour, '#');
    PairComponent(h, 0);
    PairComponent(h, 2);
    PairComponent(h, 4);
  }

  /** A two-digit pair parses to its value. */
  lemma PairComponent(h: string, i: nat)
    requires i + 2 <= |h| && IsHexDigit(h[i]) && IsHexDigit(h[i + 1])
    ensures Component(h, i) == Ok(PairValue(h, i))
  {
    assert Slice(h, i, i + 2) == [h[i], h[i + 1]];
  }

  /** Appending text to a colour that already has six characters after its
      `#`s does not change what it parses to. */
  lemma {:induction false} TrailingTextIgnored(colour: string, tail: string)
    requires |LStrip(colour, '#')| >= 6
    ensures HexToRgb(colour + tail) == HexToRgb(colour)
  {
    LStripAppend(colour, tail);
    var h := LStrip(colour, '#');
    PairsOfPrefix(h, tail);
  }

  /** Only the first six characters feed the three components. */
  lemma PairsOfPrefix(h: string, tail: string)
    requires |h| >= 6
    ensures ParsePairs(h + tail) == ParsePairs(h)
  {
    var ht := h + tail;
    assert ht[0..2] == h[0..2];
    assert ht[2..4] == h[2..4];
    assert ht[4..6] == h[4..6];
    assert Component(ht, 0) == Component(h, 0);
    assert Component(ht, 2) == Component(h, 2);
    assert Component(ht, 4) == Component(h, 4);
  }

  /** Stripping leading `#`s from `s + tail` strips them from `s` alone when
      something other than `#` is left of `s`. */
  lemma {:induction false} LStripAppend(s: string, tail: string)
    requires LStrip(s, '#') != []
    ensures LStrip(s + tail, '#') == LStrip(s, '#') + tail
    decreases |s|
  {
    if |s| > 0 && s[0] == '#' {
      assert (s + tail)[1..] == s[1..] + tail;
      LStripAppend(s[1..], tail);
    }
  }

  /** The `#rrggbb` form of a colour: two lower-case hex digits per channel. */
  function FormatHex(c: Rgb): (s: string)
    ensures |s| == 7 && s[0] == '#'
  {
    ['#', DigitChar(c.r / 16), DigitChar(c.r % 16), DigitChar(c.g / 16), DigitChar(c.g % 16),
     DigitChar(c.b / 16), DigitChar(c.b % 16)]
  }

  /** Formatting a colour as `#RRGGBB` and parsing it back gives the colour. */
  lemma HexRoundTrip(c: Rgb)
    ensures HexToRgb(FormatHex(c)) == Ok(Triple(c.r, c.g, c.b))
  {
    var s := FormatHex(c);
    var h := s[1..];
    assert s == "#" + h;
    DigitsOfByte(h, 0, c.r);
    DigitsOfByte(h, 2, c.g);
    DigitsOfByte(h, 4, c.b);
    HexDigitsParse(h);
  }

  /** The two digits `'%02x'` writes for a byte read back as that byte. */
  lemma DigitsOfByte(h: string, i: nat, v: Byte)
    requires i + 2 <= |h| && h[i] == DigitChar(v / 16) && h[i + 1] == DigitChar(v % 16)
    ensures IsHexDigit(h[i]) && IsHexDigit(h[i + 1]) && PairValue(h, i) == v
  {
  }

  /** PIL's conversion of a colour tuple to a pixel, which clips each
      component into 0..255 (only a negative component, from a `"-f"`-style
      slice, is ever outside it). */
  function Clip8(v: int): (b: Byte)
    ensures 0 <= v < 256 ==> b == v
    ensures v < 0 ==> b == 0
  {
    if v < 0 then 0 else if v > 255 then 255 else v
  }

  /** The fill pixel for a parsed colour: its components as PIL takes them,
      at full opacity. */
  function Ink(t: Triple): (p: Rgba)
    ensures p.a == 255
    ensures 0 <= t.r < 256 && 0 <= t.g < 256 && 0 <= t.b < 256 ==>
              p == Rgba(t.r, t.g, t.b, 255)
  {
    Rgba(Clip8(t.r), Clip8(t.g), Clip8(t.b), 255)
  }
}

=== FILE: image_processor.dfy ===
/** `ImageProcessor`: the background of an already processed image is
    replaced (`change_background` with `_create_background` and
    `_create_gradient`), and an image is flattened for JPEG
    (`compress_image`).

    The image to work on enters as its decoded RGBA grid, a background image
    file as its decoded content already resized to the target size, or
    `None` when the path does not exist.
 */
module ImageProcessor {
  import opened Outcomes
  import opened PyStr
  import opened Raster
  import opened HexColour

  /** The JSON `background_value`: a string (colour or path), an integer
      (a JSON number without a fraction or exponent, or a boolean, which Python treats
      as the integers 1 and 0), an object (gradient configuration) or any
      other JSON value (a float, `null`, an array). */
  datatype BgValue = Text(text: string) | Integer(n: int) | Object(fields: map<string, Field>) | OtherJson

  /** A value inside the gradient configuration: a string, or a JSON value
      of any other type, which has no string methods. */
  datatype Field = FieldText(text: string) | FieldOther

  const DefaultColour1: string := "#667eea"
  const DefaultColour2: string := "#764ba2"

  /** The configuration's value under `key`, or the string `default` when
      the key is absent. */
  function Get(fields: map<string, Field>, key: string, default: string): Field {
    if key in fields then fields[key] else FieldText(default)
  }

  /** The colour of a configuration value: a string is parsed as hex, and
      any other JSON value raises, as it has no `lstrip`. */
  function FieldColour(f: Field): (r: Result<Triple>)
    ensures f.FieldText? ==> r == HexToRgb(f.text)
    ensures f.FieldOther? ==> r == Err(WrongJsonType)
  {
    match f
    case FieldText(text) => HexToRgb(text)
    case FieldOther => Err(WrongJsonType)
  }

  /** Floor division of a non-negative dividend brackets it between two
      consecutive multiples of the divisor. */
  lemma DivBracket(m: int, d: int)
    requires m >= 0 && d > 0
    ensures 0 <= m / d && (m / d) * d <= m < (m / d + 1) * d
  {
    var q, r := m / d, m % d;
    assert m == q * d + r && 0 <= r < d;
    assert (q + 1) * d == q * d + d;
    if q < 0 {
      MulMonotoneInt(q, -1, d);
      assert false;
    }
  }

  /** Python's `int(x)` of the exact quotient `n / d`: truncation toward
      zero, so the quotient never lies farther from zero than `n / d`. */
  function TruncDiv(n: int, d: int): (q: int)
    requires d > 0
    ensures n >= 0 ==> 0 <= q && q * d <= n < (q + 1) * d
    ensures n < 0 ==> q <= 0 && (q - 1) * d < n <= q * d
  {
    if n >= 0 then
      DivBracket(n, d);
      n / d
    else
      DivBracket(-n, d);
      var p := (-n) / d;
      assert (-p) * d == -(p * d) && (-p - 1) * d == -((p + 1) * d);
      -p
  }

  /** Channel value of row `i` of an `h`-row gradient from `c1` to `c2`: the
      blend with weights `1 - i/h` and `i/h`, computed exactly and then
      truncated toward zero. */
  function GradientValue(c1: int, c2: int, h: nat, i: nat): (v: int)
    requires i < h
    ensures var n := c1 * (h - i) + c2 * i;
            (n >= 0 ==> 0 <= v && v * h <= n < (v + 1) * h) &&
            (n < 0 ==> v <= 0 && (v - 1) * h < n <= v * h)
  {
    TruncDiv(c1 * (h - i) + c2 * i, h)
  }

  /** Storing a value into the `uint8` array: values outside 0..255 are
      rejected. */
  function ToByte(v: int): (r: Result<Byte>)
    ensures r.Ok? <==> 0 <= v < 256
    ensures r.Ok? ==> r.value == v
  {
    if 0 <= v < 256 then Ok(v) else Err(ByteOutOfRange(v))
  }

  /** The opaque pixel stored across row `i` of the gradient array. The
      store succeeds exactly when all three channel values fit a byte. */
  function GradientPixel(c1: Triple, c2: Triple, h: nat, i: nat): (r: Result<Rgba>)
    requires i < h
    ensures r.Ok? <==> 0 <= GradientValue(c1.r, c2.r, h, i) < 256 &&
                       0 <= GradientValue(c1.g, c2.g, h, i) < 256 &&
                       0 <= GradientValue(c1.b, c2.b, h, i) < 256
    ensures r.Ok? ==> r.value.a == 255
    ensures r.Ok? ==> r.value.r == GradientValue(c1.r, c2.r, h, i) &&
                      r.value.g == GradientValue(c1.g, c2.g, h, i) &&
                      r.value.b == GradientValue(c1.b, c2.b, h, i)
  {
    var red :- ToByte(GradientValue(c1.r, c2.r, h, i));
    var green :- ToByte(GradientValue(c1.g, c2.g, h, i));
    var blue :- ToByte(GradientValue(c1.b, c2.b, h, i));
    Ok(Rgba(red, green, blue, 255))
  }

  /** Rows `i` to `h - 1` of the gradient, filled in order; the first row
      whose value does not fit a byte raises. */
  function GradientRows(c1: Triple, c2: Triple, w: nat, h: nat, i: nat): (r: Result<seq<seq<Rgba>>>)
    requires i <= h
    ensures r.Ok? <==> forall k :: i <= k < h ==> GradientPixel(c1, c2, h, k).Ok?
    ensures r.Ok? ==> HasSize(r.value, w, h - i)
    ensures r.Ok? ==> forall k, j :: 0 <= k < h - i && 0 <= j < w ==>
                        r.value[k][j] == GradientPixel(c1, c2, h, i + k).value
    decreases h - i
  {
    if i == h then Ok([])
    else
      var p :- GradientPixel(c1, c2, h, i);
      var rest :- GradientRows(c1, c2, w, h, i + 1);
      var row := seq(w, _ => p);
      var rows := [row] + rest;
      assert forall k :: 0 < k < h - i ==> rows[k] == rest[k - 1];
      Ok(rows)
  }

  /** The `h`-row gradient from `c1` to `c2`, every row one colour. */
  function Gradient(c1: Triple, c2: Triple, w: nat, h: nat): (r: Result<seq<seq<Rgba>>>)
    ensures r.Ok? <==> forall k :: 0 <= k < h ==> GradientPixel(c1, c2, h, k).Ok?
    ensures r.Ok? ==> HasSize(r.value, w, h) && AllOpaque(r.value)
    ensures r.Ok? ==> forall i, j :: 0 <= i < h && 0 <= j < w ==>
                        r.value[i][j] == GradientPixel(c1, c2, h, i).value
  {
    GradientRows(c1, c2, w, h, 0)
  }

  /** `_create_gradient(size, config)`: a vertical gradient from `color1`
      (default `#667eea`) to `color2` (default `#764ba2`). A configuration
      that is not an object has no `.get` and raises; so does a colour that
      is not a string or does not parse, `color1` first. */
  function CreateGradient(w: nat, h: nat, config: BgValue): (r: Result<seq<seq<Rgba>>>)
    ensures !config.Object? ==> r == Err(WrongJsonType)
    ensures config.Object? ==>
              var c1 := FieldColour(Get(config.fields, "color1", DefaultColour1));
              var c2 := FieldColour(Get(config.fields, "color2", DefaultColour2));
              (c1.Err? ==> r == Err(c1.error)) &&
              (c1.Ok? && c2.Err? ==> r == Err(c2.error)) &&
              (c1.Ok? && c2.Ok? ==> r == Gradient(c1.value, c2.value, w, h))
  {
    match config
    case Object(fields) =>
      var c1 :- FieldColour(Get(fields, "color1", DefaultColour1));
      var c2 :- FieldColour(Get(fields, "color2", DefaultColour2));
      Gradient(c1, c2, w, h)
    case _ => Err(WrongJsonType)
  }

  /** Row 0 of the gradient is `color1` exactly. */
  lemma GradientFirstRow(c1: int, c2: int, h: nat)
    requires 0 < h && 0 <= c1
    ensures GradientValue(c1, c2, h, 0) == c1
  {
    assert c1 * (h - 0) + c2 * 0 == c1 * h;
    MulDivCancel(c1, h);
  }

  lemma MulMonotoneInt(x: int, y: int, c: nat)
    requires x <= y
    ensures x * c <= y * c
  {
    assert y * c - x * c == (y - x) * c;
  }

  /** Floor division by a positive divisor keeps order. */
  lemma DivMonotone(a: int, b: int, d: int)
    requires 0 <= a <= b && d > 0
    ensures a / d <= b / d
  {
    var q, p := a / d, b / d;
    assert q * d <= a;
    assert b < p * d + d;
    assert q * d < (p + 1) * d;
    if q > p {
      MulMonotoneInt(p + 1, q, d);
      assert false;
    }
  }

  lemma MulDivCancel(c: nat, h: nat)
    requires h > 0
    ensures (c * h) / h == c
  {
    var q := (c * h) / h;
    assert c * h == q * h + (c * h) % h;
    assert (c - q) * h == (c * h) % h;
    if q < c {
      MulMonotoneInt(1, c - q, h);
      assert false;
    }
    if q > c {
      MulMonotoneInt(c - q, -1, h);
      assert false;
    }
  }

  /** For byte colours the truncation is a floor division of a non-negative
      numerator, and the numerator lies between `c1 * h` and `c2 * h`. */
  lemma GradientNumeratorBetween(c1: Byte, c2: Byte, h: nat, i: nat)
    requires i < h
    ensures var n := c1 * (h - i) + c2 * i;
            0 <= n && GradientValue(c1, c2, h, i) == n / h &&
            (c1 <= c2 ==> c1 * h <= n <= c2 * h) &&
            (c2 <= c1 ==> c2 * h <= n <= c1 * h)
  {
    var n := c1 * (h - i) + c2 * i;
    assert 0 <= c1 * (h - i) && 0 <= c2 * i;
    assert c1 * h == c1 * (h - i) + c1 * i;
    assert c2 * h == c2 * (h - i) + c2 * i;
    if c1 <= c2 {
      MulMonotoneInt(c1, c2, i);
      MulMonotoneInt(c1, c2, h - i);
    } else {
      MulMonotoneInt(c2, c1, i);
      MulMonotoneInt(c2, c1, h - i);
    }
  }

  /** Every gradient value of two byte colours lies between them, so it is
      itself a byte. */
  lemma GradientBetween(c1: Byte, c2: Byte, h: nat, i: nat)
    requires i < h
    ensures c1 <= c2 ==> c1 <= GradientValue(c1, c2, h, i) <= c2
    ensures c2 <= c1 ==> c2 <= GradientValue(c1, c2, h, i) <= c1
  {
    var n := c1 * (h - i) + c2 * i;
    GradientNumeratorBetween(c1, c2, h, i);
    MulDivCancel(c1, h);
    MulDivCancel(c2, h);
    if c1 <= c2 {
      DivMonotone(c1 * h, n, h);
      DivMonotone(n, c2 * h, h);
    } else {
      DivMonotone(c2 * h, n, h);
      DivMonotone(n, c1 * h, h);
    }
  }

  /** Gradient values never decrease down the image when `c1 <= c2`, and never
      increase when `c2 <= c1`. */
  lemma GradientMonotone(c1: Byte, c2: Byte, h: nat, i: nat)
    requires i + 1 < h
    ensures c1 <= c2 ==> GradientValue(c1, c2, h, i) <= GradientValue(c1, c2, h, i + 1)
    ensures c2 <= c1 ==> GradientValue(c1, c2, h, i) >= GradientValue(c1, c2, h, i + 1)
  {
    var n := c1 * (h - i) + c2 * i;
    var m := c1 * (h - (i + 1)) + c2 * (i + 1);
    GradientNumeratorBetween(c1, c2, h, i);
    GradientNumeratorBetween(c1, c2, h, i + 1);
    assert m == n + (c2 - c1);
    if c1 <= c2 {
      DivMonotone(n, m, h);
    } else {
      DivMonotone(m, n, h);
    }
  }

  /** Monotone but not strictly: from 0 to 1 over four rows, rows 0 and 1
      are both 0. */
  lemma GradientNotStrict()
    ensures GradientValue(0, 1, 4, 0) == GradientValue(0, 1, 4, 1) == 0
  {
  }

  /** Once a row has been stored, the rows are filled on, and a later row
      that does not fit raises with that row's error. */
  lemma GradientRowsSkip(c1: Triple, c2: Triple, w: nat, h: nat, i: nat)
    requires i < h
    ensures GradientPixel(c1, c2, h, i).Ok? && GradientRows(c1, c2, w, h, i + 1).Err? ==>
              GradientRows(c1, c2, w, h, i) == GradientRows(c1, c2, w, h, i + 1)
  {
  }

  /** A negative end colour, from a slice such as `-f`, is stored as long
      as every row's value stays at or above 0: from red 255 to red -15 over
      two rows the second row holds 120. */
  lemma GradientNegativeEndFits(w: nat)
    ensures Gradient(Triple(255, 0, 0), Triple(-15, 0, 0), w, 2).Ok?
  {
  }

  /** From red 0 to red -15 over two rows the second row's value is -7,
      which the `uint8` store rejects. */
  lemma GradientNegativeEndRaises(w: nat)
    ensures Gradient(Triple(0, 0, 0), Triple(-15, 0, 0), w, 2) == Err(ByteOutOfRange(-7))
  {
    var c1, c2 := Triple(0, 0, 0), Triple(-15, 0, 0);
    assert GradientPixel(c1, c2, 2, 1) == Err(ByteOutOfRange(-7));
    assert GradientRows(c1, c2, w, 2, 1) == Err(ByteOutOfRange(-7));
    assert GradientPixel(c1, c2, 2, 0).Ok?;
    GradientRowsSkip(c1, c2, w, 2, 0);
  }

  /** Two byte colours give a gradient pixel for every row. */
  lemma GradientPixelFits(c1: Triple, c2: Triple, h: nat, i: nat)
    requires i < h
    requires 0 <= c1.r < 256 && 0 <= c1.g < 256 && 0 <= c1.b < 256
    requires 0 <= c2.r < 256 && 0 <= c2.g < 256 && 0 <= c2.b < 256
    ensures GradientPixel(c1, c2, h, i).Ok?
  {
    GradientBetween(c1.r, c2.r, h, i);
    GradientBetween(c1.g, c2.g, h, i);
    GradientBetween(c1.b, c2.b, h, i);
  }

  /** Two byte colours give a complete gradient whose first row is `c1`. */
  lemma GradientOfBytes(c1: Triple, c2: Triple, w: nat, h: nat)
    requires 0 <= c1.r < 256 && 0 <= c1.g < 256 && 0 <= c1.b < 256
    requires 0 <= c2.r < 256 && 0 <= c2.g < 256 && 0 <= c2.b < 256
    ensures Gradient(c1, c2, w, h).Ok?
    ensures 0 < h ==> forall j :: 0 <= j < w ==> Gradient(c1, c2, w, h).value[0][j] == Ink(c1)
  {
    forall k | 0 <= k < h
      ensures GradientPixel(c1, c2, h, k).Ok?
    {
      GradientPixelFits(c1, c2, h, k);
    }
    if 0 < h {
      GradientFirstRow(c1.r, c2.r, h);
      GradientFirstRow(c1.g, c2.g, h);
      GradientFirstRow(c1.b, c2.b, h);
    }
  }

  /** With six-digit hex colours the gradient never fails; it is the
      gradient between the two parsed colours, so by `GradientOfBytes` its
      first row is `color1`. `colour1` and `colour2` are the strings the
      configuration gives, or the defaults. */
  lemma GradientOfHexCodes(w: nat, h: nat, fields: map<string, Field>, colour1: string, colour2: string)
    requires Get(fields, "color1", DefaultColour1) == FieldText(colour1)
    requires Get(fields, "color2", DefaultColour2) == FieldText(colour2)
    requires IsHexCode(colour1) && IsHexCode(colour2)
    ensures HexToRgb(colour1).Ok? && HexToRgb(colour2).Ok?
    ensures CreateGradient(w, h, Object(fields)) ==
            Gradient(HexToRgb(colour1).value, HexToRgb(colour2).value, w, h)
    ensures CreateGradient(w, h, Object(fields)).Ok?
  {
    var c1 := ParsedByte(colour1);
    var c2 := ParsedByte(colour2);
    assert CreateGradient(w, h, Object(fields)) == Gradient(c1, c2, w, h);
    GradientOfBytes(c1, c2, w, h);
  }

  lemma ParsedByte(colour: string) returns (c: Triple)
    requires IsHexCode(colour)
    ensures HexToRgb(colour) == Ok(c)
    ensures 0 <= c.r < 256 && 0 <= c.g < 256 && 0 <= c.b < 256
  {
    HexCodeParses(colour);
    c := HexToRgb(colour).value;
  }

  /** The default `color1`, `#667eea`. */
  lemma DefaultColour1Parses()
    ensures HexToRgb(DefaultColour1) == Ok(Triple(102, 126, 234))
  {
    HexLiteral("667eea", DefaultColour1, 102, 126, 234);
  }

  /** The default `color2`, `#764ba2`. */
  lemma DefaultColour2Parses()
    ensures HexToRgb(DefaultColour2) == Ok(Triple(118, 75, 162))
  {
    HexLiteral("764ba2", DefaultColour2, 118, 75, 162);
  }

  /** A value that fits the C `int` that `os.stat` converts a file
      descriptor to. */
  predicate IsCInt(n: int) {
    -0x8000_0000 <= n < 0x8000_0000
  }

  /** `_create_background(size, bg_type, bg_value)`: `'color'` parses the
      value as hex (there are no named colours here), `'image'` uses the file
      when it exists and white otherwise, `'gradient'` delegates to
      `_create_gradient`, and any other type is white.

      `file` is what the existence test found: `None` when it fails. For a
      string that is the decoded file, resized. An integer is treated as a
      file descriptor number: one outside the C `int` range makes the
      existence test raise `OverflowError`, which it does not catch; when an
      in-range descriptor is open, opening it as an image raises, so its
      content plays no part. Any other JSON value makes the existence test
      raise. */
  function CreateBackground(w: nat, h: nat, bgType: string, bgValue: BgValue,
                            file: Option<seq<seq<Rgba>>>): (r: Result<seq<seq<Rgba>>>)
    requires file.Some? ==> HasSize(file.value, w, h)
    ensures r.Ok? ==> HasSize(r.value, w, h)
    ensures bgType == "color" ==>
              if bgValue.Text? && HexToRgb(bgValue.text).Ok?
              then r == Ok(Fill(Ink(HexToRgb(bgValue.text).value), w, h))
              else r.Err?
    ensures bgType == "color" && !bgValue.Text? ==> r == Err(WrongJsonType)
    ensures bgType == "image" && (bgValue.Text? || (bgValue.Integer? && IsCInt(bgValue.n))) && file.None? ==>
              r == Ok(Fill(Opaque(White), w, h))
    ensures bgType == "image" && bgValue.Text? && file.Some? ==> r == Ok(file.value)
    ensures bgType == "image" && bgValue.Integer? && IsCInt(bgValue.n) && file.Some? ==> r == Err(WrongJsonType)
    ensures bgType == "image" && bgValue.Integer? && !IsCInt(bgValue.n) ==> r == Err(DescriptorOverflow(bgValue.n))
    ensures bgType == "image" && (bgValue.Object? || bgValue.OtherJson?) ==> r == Err(WrongJsonType)
    ensures bgType == "gradient" ==> r == CreateGradient(w, h, bgValue)
    ensures bgType !in {"color", "image", "gradient"} ==> r == Ok(Fill(Opaque(White), w, h))
    ensures bgType != "image" && r.Ok? ==> AllOpaque(r.value)
  {
    if bgType == "color" then
      match bgValue
      case Text(s) =>
        var t :- HexToRgb(s);
        Ok(Fill(Ink(t), w, h))
      case _ => Err(WrongJsonType)
    else if bgType == "image" then
      match bgValue
      case Text(_) => if file.Some? then Ok(file.value) else Ok(Fill(Opaque(White), w, h))
      case Integer(n) =>
        if !IsCInt(n) then Err(DescriptorOverflow(n))
        else if file.Some? then Err(WrongJsonType)
        else Ok(Fill(Opaque(White), w, h))
      case _ => Err(WrongJsonType)
    else if bgType == "gradient" then CreateGradient(w, h, bgValue)
    else Ok(Fill(Opaque(White), w, h))
  }

  /** The largest descriptor number still falls back to white when it is
      not open; one more overflows the conversion and raises. */
  lemma DescriptorRange(w: nat, h: nat)
    ensures CreateBackground(w, h, "image", Integer(0x7fff_ffff), None) == Ok(Fill(Opaque(White), w, h))
    ensures CreateBackground(w, h, "image", Integer(0x8000_0000), None) == Err(DescriptorOverflow(0x8000_0000))
    ensures CreateBackground(w, h, "image", Integer(-0x8000_0001), None) == Err(DescriptorOverflow(-0x8000_0001))
  {
  }

  /** Unlike the remover's `_create_background`, the `'color'` type knows no
      colour names: `"white"` is not a hex literal and raises. */
  lemma ColourTypeRejectsNames(w: nat, h: nat)
    ensures CreateBackground(w, h, "color", Text("white"), None) == Err(InvalidLiteral("wh"))
  {
    assert HexToRgb("white") == Err(InvalidLiteral("wh")) by {
      assert LStrip("white", '#') == "white";
      assert Slice("white", 0, 2) == "wh";
      assert ParseBase16("wh") == None by {
        assert Strip("wh") == "wh" by {
          assert !IsPySpace('w') && !IsPySpace('h');
        }
        assert !IsHexDigit('w');
      }
    }
  }

  /** What `change_background` saves. */
  datatype Saved = Saved(filename: string, rgba: seq<seq<Rgba>>)

  /** The saved name of `change_background`: the basename with every `.png`
      turned into `_bg_<type>.png`. A basename without `.png` is kept, and
      a type without a slash gives a name without one, so the file stays in
      the output folder. */
  function ChangedName(imagePath: string, bgType: string): (name: string)
    ensures !Occurs(Basename(imagePath), ".png") ==> name == Basename(imagePath)
    ensures '/' !in bgType ==> '/' !in name
  {
    var base := Basename(imagePath);
    var rep := "_bg_" + bgType + ".png";
    assert !Occurs(base, ".png") ==> Replace(base, ".png", rep) == base by {
      if !Occurs(base, ".png") {
        ReplaceWithoutOccurrence(base, ".png", rep);
      }
    }
    assert '/' !in bgType ==> '/' !in rep;
    Replace(base, ".png", rep)
  }

  /** `change_background(image_path, background_type, background_value)`:
      the image composited over the new background, at the image's size. */
  function ChangeBackground(imagePath: string, img: seq<seq<Rgba>>, w: nat, h: nat, bgType: string,
                            bgValue: BgValue, file: Option<seq<seq<Rgba>>>): (r: Result<Saved>)
    requires HasSize(img, w, h)
    requires file.Some? ==> HasSize(file.value, w, h)
    ensures r.Ok? <==> CreateBackground(w, h, bgType, bgValue, file).Ok?
    ensures r.Ok? ==>
              var bg := CreateBackground(w, h, bgType, bgValue, file).value;
              r.value.filename == ChangedName(imagePath, bgType) &&
              HasSize(r.value.rgba, w, h) &&
              (forall i, j :: 0 <= i < h && 0 <= j < w && img[i][j].a == 255 ==>
                 r.value.rgba[i][j] == img[i][j]) &&
              (forall i, j :: 0 <= i < h && 0 <= j < w && img[i][j].a == 0 ==>
                 r.value.rgba[i][j] == bg[i][j]) &&
              (bgType != "image" ==> AllOpaque(r.value.rgba))
  {
    var bg :- CreateBackground(w, h, bgType, bgValue, file);
    Ok(Saved(ChangedName(imagePath, bgType), Composite(bg, img, w, h)))
  }

  /** Replacing `.png` in the basename of `<folder>/<stem>.png`, where the
      stem has neither a slash nor a dot, replaces the final `.png` only. */
  lemma ReplacePngSuffix(folder: string, stem: string, rep: string)
    requires '/' !in stem && '.' !in stem
    ensures Replace(Basename(folder + "/" + stem + ".png"), ".png", rep) == stem + rep
  {
    var name := stem + ".png";
    assert folder + "/" + stem + ".png" == folder + "/" + name;
    assert '/' !in name by {
      assert forall k :: 0 <= k < |name| ==> name[k] == if k < |stem| then stem[k] else ".png"[k - |stem|];
    }
    BasenameOfJoin(folder, name);
    assert ".png"[0] == '.';
    ReplaceFinalOccurrence(stem, ".png", rep);
  }

  /** A `<stem>.png` name whose stem has no dot becomes `<stem>_bg_<type>.png`. */
  lemma ChangedNameOfPng(folder: string, stem: string, bgType: string)
    requires '/' !in stem && '.' !in stem
    ensures ChangedName(folder + "/" + stem + ".png", bgType) == stem + "_bg_" + bgType + ".png"
  {
    var rep := "_bg_" + bgType + ".png";
    assert ChangedName(folder + "/" + stem + ".png", bgType) == stem + rep by {
      ReplacePngSuffix(folder, stem, rep);
    }
    AppendAssoc(stem, "_bg_" + bgType, ".png");
    AppendAssoc(stem, "_bg_", bgType);
  }

  /** A name in which `.png` does not occur is returned unchanged. */
  lemma ChangedNameWithoutPng(folder: string, name: string, bgType: string)
    requires '/' !in name && !Occurs(name, ".png")
    ensures ChangedName(folder + "/" + name, bgType) == name
  {
    BasenameOfJoin(folder, name);
    ReplaceWithoutOccurrence(name, ".png", "_bg_" + bgType + ".png");
  }

  /** Both occurrences in `<stem>.png.png` are replaced when the stem has
      no dot. */
  lemma ReplaceTwice(stem: string, rep: string)
    requires '.' !in stem
    ensures Replace(stem + ".png" + ".png", ".png", rep) == stem + rep + rep
  {
    var name := stem + ".png" + ".png";
    forall i | 0 <= i < |stem|
      ensures !OccursAt(name, ".png", i)
    {
      assert name[i] == stem[i];
    }
    ReplaceFirstOccurrence(stem, ".png", rep, ".png");
    assert "" + ".png" == ".png";
    ReplaceFinalOccurrence("", ".png", rep);
  }

  /** Every `.png` is replaced, not only the last: `a.png.png` becomes
      `a_bg_<type>.png_bg_<type>.png`. */
  lemma ChangedNameEveryPng(folder: string, stem: string, bgType: string)
    requires '/' !in stem && '.' !in stem
    ensures var rep := "_bg_" + bgType + ".png";
            ChangedName(folder + "/" + stem + ".png.png", bgType) == stem + rep + rep
  {
    var rep := "_bg_" + bgType + ".png";
    var name := stem + ".png" + ".png";
    assert folder + "/" + stem + ".png.png" == folder + "/" + name;
    assert '/' !in name by {
      assert forall k :: 0 <= k < |name| ==> name[k] == if k < |stem| then stem[k] else ".png.png"[k - |stem|];
    }
    BasenameOfJoin(folder, name);
    ReplaceTwice(stem, rep);
    assert ChangedName(folder + "/" + name, bgType) == Replace(name, ".png", rep);
  }

  /** An opened image: 4-channel `RGBA` or 3-channel `RGB`. */
  datatype Picture = RgbaPicture(rgba: seq<seq<Rgba>>) | RgbPicture(rgb: seq<seq<Rgb>>)

  predicate PictureHasSize(pic: Picture, w: nat, h: nat) {
    match pic
    case RgbaPicture(px) => HasSize(px, w, h)
    case RgbPicture(px) => HasSize(px, w, h)
  }

  /** What `compress_image` saves: a JPEG file name and its 3-channel pixels. */
  datatype Compressed = Compressed(filename: string, rgb: seq<seq<Rgb>>)

  /** `compress_image(image_path, quality)`: an RGBA image is flattened onto
      white through its alpha channel, an RGB image is saved as it is, and
      the name has every `.png` replaced by `_compressed.jpg`. */
  function CompressImage(imagePath: string, pic: Picture, w: nat, h: nat): (r: Compressed)
    requires PictureHasSize(pic, w, h)
    ensures r.filename == Replace(Basename(imagePath), ".png", "_compressed.jpg")
    ensures HasSize(r.rgb, w, h)
    ensures pic.RgbPicture? ==> r.rgb == pic.rgb
    ensures pic.RgbaPicture? ==>
              forall i, j :: 0 <= i < h && 0 <= j < w ==>
                (pic.rgba[i][j].a == 255 ==> r.rgb[i][j] == pic.rgba[i][j].Colour()) &&
                (pic.rgba[i][j].a == 0 ==> r.rgb[i][j] == White)
  {
    var name := Replace(Basename(imagePath), ".png", "_compressed.jpg");
    match pic
    case RgbaPicture(px) => Compressed(name, FlattenOnWhite(px, w, h))
    case RgbPicture(px) => Compressed(name, px)
  }

  /** A `<stem>.png` name whose stem has no dot becomes `<stem>_compressed.jpg`. */
  lemma CompressedNameOfPng(folder: string, stem: string, pic: Picture, w: nat, h: nat)
    requires '/' !in stem && '.' !in stem
    requires PictureHasSize(pic, w, h)
    ensures CompressImage(folder + "/" + stem + ".png", pic, w, h).filename == stem + "_compressed.jpg"
  {
    ReplacePngSuffix(folder, stem, "_compressed.jpg");
  }
}

=== FILE: outcomes.dfy ===
/** Failure-compatible wrappers shared by every module of the model.

    The services signal errors by raising Python exceptions; here each such
    exception is a `Failure` value carried by `Result.Err`, so that an error
    path is a case of the result rather than a precondition.
 */
module Outcomes {

  datatype Option<+T> = None | Some(value: T)

  /** The exceptions of the services that the model keeps apart. */
  datatype Failure =
    | ModelNotLoaded              // "Model not loaded. Cannot process image."
    | InvalidLiteral(text: string) // ValueError from int(text, 16)
    | WrongJsonType               // AttributeError/TypeError: a JSON value of the wrong type
    | DescriptorOverflow(fd: int) // OverflowError: a file descriptor outside the C int range
    | ByteOutOfRange(value: int)  // a gradient value that does not fit uint8

  datatype Result<+T> = Ok(value: T) | Err(error: Failure) {

    predicate IsFailure() {
      Err?
    }

    function PropagateFailure<U>(): Result<U>
      requires Err?
    {
      Err(error)
    }

    function Extract(): T
      requires Ok?
    {
      value
    }
  }
}

=== FILE: pystr.dfy ===
/** The Python `str` operations the services and the web layer rely on:
    `lstrip`, slicing, `startswith`, `rsplit(c, 1)`, `os.path.basename`,
    `lower` and `replace`, over `seq<char>`.
 */
module PyStr {
  import opened Outcomes

  /** `s.lstrip(c)` for a one-character argument: every leading `c` is dropped. */
  function LStrip(s: string, c: char): (r: string)
    ensures |r| <= |s| && r == s[|s| - |r|..]
    ensures forall i :: 0 <= i < |s| - |r| ==> s[i] == c
    ensures r == [] || r[0] != c
  {
    if |s| > 0 && s[0] == c then LStrip(s[1..], c) else s
  }

  /** Python slice `s[i:j]` for non-negative bounds: bounds past the end are
      clamped, so a slice never fails and may be shorter than `j - i`. */
  function Slice(s: string, i: nat, j: nat): (r: string)
    requires i <= j
    ensures |r| <= j - i
    ensures j <= |s| ==> r == s[i..j]
    ensures i < |s| <= j ==> r == s[i..]
    ensures |s| <= i ==> r == []
  {
    var lo := if i < |s| then i else |s|;
    var hi := if j < |s| then j else |s|;
    s[lo..hi]
  }

  /** `s.startswith(prefix)`: `s` agrees with `prefix` on its first
      `|prefix|` characters. */
  predicate StartsWith(s: string, prefix: string)
    ensures StartsWith(s, prefix) <==>
              |prefix| <= |s| && forall k :: 0 <= k < |prefix| ==> s[k] == prefix[k]
  {
    |prefix| <= |s| && s[..|prefix|] == prefix
  }

  /** A one-character prefix is the first character. */
  lemma StartsWithChar(s: string, c: char)
    ensures StartsWith(s, [c]) <==> |s| > 0 && s[0] == c
  {
    if |s| > 0 {
      assert s[..1] == [s[0]];
    }
  }

  /** Index of the last occurrence of `c` in `s` (`str.rfind`). */
  function LastIndexOf(s: string, c: char): (k: Option<nat>)
    ensures k.None? <==> c !in s
    ensures k.Some? ==> k.value < |s| && s[k.value] == c && c !in s[k.value + 1..]
  {
    if |s| == 0 then None
    else if s[|s| - 1] == c then Some(|s| - 1)
    else
      var k := LastIndexOf(s[..|s| - 1], c);
      assert k.Some? ==> s[k.value + 1..] == s[..|s| - 1][k.value + 1..] + [s[|s| - 1]];
      assert k.None? ==> s == s[..|s| - 1] + [s[|s| - 1]];
      k
  }

  /** `s.rsplit(c, 1)[0]`: everything before the last `c`, or all of `s`
      when `c` does not occur. */
  function BeforeLast(s: string, c: char): (r: string)
    ensures c !in s ==> r == s
    ensures c in s ==> |r| < |s| && r == s[..|r|] && s[|r|] == c && c !in s[|r| + 1..]
  {
    match LastIndexOf(s, c)
    case None => s
    case Some(k) =>
      assert s == s[..k] + [c] + s[k + 1..];
      s[..k]
  }

  /** `s.rsplit(c, 1)[1]`: everything after the last `c`; Python raises
      IndexError when `c` does not occur, hence the precondition. */
  function AfterLast(s: string, c: char): (r: string)
    requires c in s
    ensures c !in r
    ensures s == BeforeLast(s, c) + [c] + r
  {
    var k := LastIndexOf(s, c).value;
    assert s == s[..k] + [c] + s[k + 1..];
    s[k + 1..]
  }

  /** `os.path.basename` on a POSIX path: the text after the last `/`. */
  function Basename(path: string): (r: string)
    ensures '/' !in r
    ensures |r| <= |path| && r == path[|path| - |r|..]
    ensures '/' in path ==> |r| < |path| && path[|path| - |r| - 1] == '/'
    ensures '/' !in path ==> r == path
  {
    if '/' in path then AfterLast(path, '/') else path
  }

  /** `str.lower` on one character, for the ASCII letters. */
  function LowerChar(c: char): char {
    if 'A' <= c <= 'Z' then (c as int - 'A' as int + 'a' as int) as char else c
  }

  /** `str.lower`, for the ASCII letters. */
  function Lower(s: string): (r: string)
    ensures |r| == |s|
    ensures forall i :: 0 <= i < |s| ==> r[i] == LowerChar(s[i])
  {
    seq(|s|, i requires 0 <= i < |s| => LowerChar(s[i]))
  }

  /** `pat` occurs in `s` starting at index `i`. */
  predicate OccursAt(s: string, pat: string, i: nat) {
    i + |pat| <= |s| && s[i..i + |pat|] == pat
  }

  predicate Occurs(s: string, pat: string) {
    exists i: nat | i <= |s| :: OccursAt(s, pat, i)
  }

  /** `s.replace(pat, rep)`: every non-overlapping occurrence of `pat`,
      scanning from the left, becomes `rep`. Every call site passes a
      non-empty literal for `pat`. */
  function Replace(s: string, pat: string, rep: string): (r: string)
    requires |pat| > 0
    ensures forall c :: c in r ==> c in s || c in rep
    decreases |s|
  {
    if |s| < |pat| then s
    else if s[..|pat|] == pat then
      var tail := s[|pat|..];
      assert forall c :: c in tail ==> c in s;
      rep + Replace(tail, pat, rep)
    else
      var tail := s[1..];
      assert forall c :: c in tail ==> c in s;
      [s[0]] + Replace(tail, pat, rep)
  }

  /** A character absent from a string is absent from its prefixes. */
  lemma PrefixKeepsOut(s: string, n: nat, c: char)
    requires n <= |s| && c !in s
    ensures c !in s[..n]
  {
  }

  /** The second part of a concatenation is what follows the first, and a
      character absent from both parts is absent from the whole. */
  lemma AppendFacts(a: string, b: string, c: char)
    ensures (a + b)[|a|..] == b
    ensures c !in a && c !in b ==> c !in a + b
  {
  }

  /** Concatenation is associative. */
  lemma AppendAssoc<T>(a: seq<T>, b: seq<T>, c: seq<T>)
    ensures a + (b + c) == a + b + c
  {
  }

  /** Lower-casing twice is lower-casing once. */
  lemma LowerIdempotent(s: string)
    ensures Lower(Lower(s)) == Lower(s)
  {
  }

  /** A name in which `pat` never occurs comes back from `replace` unchanged. */
  lemma {:induction false} ReplaceWithoutOccurrence(s: string, pat: string, rep: string)
    requires |pat| > 0
    requires !Occurs(s, pat)
    ensures Replace(s, pat, rep) == s
    decreases |s|
  {
    if |s| < |pat| {
    } else {
      assert !OccursAt(s, pat, 0);
      assert s[..|pat|] != pat;
      forall i: nat
        ensures !OccursAt(s[1..], pat, i)
      {
        assert !OccursAt(s, pat, i + 1);
        if i + |pat| <= |s[1..]| {
          assert s[1..][i..i + |pat|] == s[i + 1..i + 1 + |pat|];
        }
      }
      ReplaceWithoutOccurrence(s[1..], pat, rep);
      assert s == [s[0]] + s[1..];
    }
  }

  /** When the first character of `pat` does not occur in `stem`, the only
      occurrence in `stem + pat` is the final one: `"photo.png".replace(".png", x)`
      is `"photo" + x`. */
  lemma {:induction false} ReplaceFinalOccurrence(stem: string, pat: string, rep: string)
    requires |pat| > 0
    requires pat[0] !in stem
    ensures Replace(stem + pat, pat, rep) == stem + rep
    decreases |stem|
  {
    var s := stem + pat;
    if |stem| == 0 {
      assert s == pat;
      assert s[|pat|..] == [];
    } else {
      assert s[0] != pat[0];
      assert s[..|pat|] != pat by {
        assert s[..|pat|][0] == s[0];
      }
      assert Replace(s, pat, rep) == [s[0]] + Replace(s[1..], pat, rep);
      assert s[1..] == stem[1..] + pat;
      ReplaceFinalOccurrence(stem[1..], pat, rep);
      assert stem == [stem[0]] + stem[1..];
    }
  }

  /** An occurrence at the very start is replaced and the scan resumes
      after it. */
  lemma ReplaceAtStart(pat: string, rep: string, b: string)
    requires |pat| > 0
    ensures Replace(pat + b, pat, rep) == rep + Replace(b, pat, rep)
  {
    assert (pat + b)[..|pat|] == pat && (pat + b)[|pat|..] == b;
  }

  /** Without an occurrence at the start, the first character is kept and
      the scan moves one step. */
  lemma ReplaceSkip(s: string, pat: string, rep: string)
    requires |pat| > 0 && |pat| <= |s| && !OccursAt(s, pat, 0)
    ensures Replace(s, pat, rep) == [s[0]] + Replace(s[1..], pat, rep)
  {
  }

  /** Dropping the first character shifts every occurrence one place left. */
  lemma OccursShift(s: string, pat: string, i: nat)
    requires |s| > 0
    ensures OccursAt(s[1..], pat, i) <==> OccursAt(s, pat, i + 1)
  {
    if i + |pat| <= |s[1..]| {
      assert s[1..][i..i + |pat|] == s[i + 1..i + 1 + |pat|];
    }
  }

  /** `replace` scans from the left: when no occurrence of `pat` starts
      inside `a`, the text `a` is kept, the occurrence right after it
      becomes `rep`, and the scan resumes after that occurrence. With
      `ReplaceWithoutOccurrence` this fixes the result on every input. */
  lemma {:induction false} ReplaceFirstOccurrence(a: string, pat: string, rep: string, b: string)
    requires |pat| > 0
    requires forall i :: 0 <= i < |a| ==> !OccursAt(a + pat + b, pat, i)
    ensures Replace(a + pat + b, pat, rep) == a + rep + Replace(b, pat, rep)
    decreases |a|
  {
    if |a| == 0 {
      assert a + pat + b == pat + b;
      ReplaceAtStart(pat, rep, b);
    } else {
      var s := a + pat + b;
      var s' := a[1..] + pat + b;
      assert s[1..] == s';
      ReplaceSkip(s, pat, rep);
      forall i | 0 <= i < |a[1..]|
        ensures !OccursAt(s', pat, i)
      {
        OccursShift(s, pat, i);
      }
      ReplaceFirstOccurrence(a[1..], pat, rep, b);
      assert a == [a[0]] + a[1..];
      assert s[0] == a[0];
    }
  }

  /** The last `c` in `a + [c] + t` is the one after `a` when `t` has none. */
  lemma {:induction false} LastIndexOfJoin(a: string, c: char, t: string)
    requires c !in t
    ensures LastIndexOf(a + [c] + t, c) == Some(|a|)
    decreases |t|
  {
    var s := a + [c] + t;
    if |t| > 0 {
      assert s[|s| - 1] == t[|t| - 1];
      assert s[..|s| - 1] == a + [c] + t[..|t| - 1];
      LastIndexOfJoin(a, c, t[..|t| - 1]);
    }
  }

  /** A split around a separator that occurs in neither tail is unique. */
  lemma SplitAtLastUnique(a: string, t: string, b: string, u: string, c: char)
    requires a + [c] + t == b + [c] + u
    requires c !in t && c !in u
    ensures a == b && t == u
  {
    var s := a + [c] + t;
    LastIndexOfJoin(a, c, t);
    LastIndexOfJoin(b, c, u);
    assert a == s[..|a|] == b;
    assert t == s[|a| + 1..] == u;
  }

  /** `rsplit('.', 1)[0]` of `stem + "." + ext` is `stem` when `ext` has no dot. */
  lemma BeforeLastOfJoin(stem: string, c: char, ext: string)
    requires c !in ext
    ensures BeforeLast(stem + [c] + ext, c) == stem
  {
    var s := stem + [c] + ext;
    assert s[|stem|] == c;
    var r := BeforeLast(s, c);
    var t := s[|r| + 1..];
    assert s == r + [c] + t;
    SplitAtLastUnique(r, t, stem, ext, c);
  }

  /** `os.path.basename(os.path.join(folder, name))` is `name` for a name
      without a slash. */
  lemma BasenameOfJoin(folder: string, name: string)
    requires '/' !in name
    ensures Basename(folder + "/" + name) == name
  {
    var path := folder + "/" + name;
    LastIndexOfJoin(folder, '/', name);
    assert path[|folder| + 1..] == name;
  }
}

=== FILE: raster.dfy ===
/** Pixels, pixel grids and the two PIL operations both services use to put
    a subject on a background: `Image.alpha_composite(bg, fg)` and the
    paste-with-alpha-mask onto a white canvas that precedes a JPEG save.

    A grid is a sequence of rows; a grid of PIL size `(w, h)` has `h` rows
    of `w` cells each.
 */
module Raster {

  /** One 8-bit channel value. */
  type Byte = x: int | 0 <= x < 256

  datatype Rgb = Rgb(r: Byte, g: Byte, b: Byte)

  datatype Rgba = Rgba(r: Byte, g: Byte, b: Byte, a: Byte) {
    /** The colour channels, alpha dropped. */
    function Colour(): Rgb {
      Rgb(r, g, b)
    }
  }

  const White: Rgb := Rgb(255, 255, 255)

  /** A colour at full opacity. */
  function Opaque(c: Rgb): (p: Rgba)
    ensures p.a == 255 && p.Colour() == c
  {
    Rgba(c.r, c.g, c.b, 255)
  }

  /** `g` has PIL size `(w, h)`. */
  predicate HasSize<T>(g: seq<seq<T>>, w: nat, h: nat) {
    |g| == h && forall i :: 0 <= i < h ==> |g[i]| == w
  }

  predicate AllOpaque(g: seq<seq<Rgba>>) {
    forall i, j :: 0 <= i < |g| && 0 <= j < |g[i]| ==> g[i][j].a == 255
  }

  /** Every alpha value is 0 or 255. */
  predicate BinaryAlpha(g: seq<seq<Rgba>>) {
    forall i, j :: 0 <= i < |g| && 0 <= j < |g[i]| ==> g[i][j].a == 0 || g[i][j].a == 255
  }

  /** `Image.new(mode, (w, h), p)`: every cell holds `p`. */
  function Fill<T>(p: T, w: nat, h: nat): (g: seq<seq<T>>)
    ensures HasSize(g, w, h)
    ensures forall i, j :: 0 <= i < h && 0 <= j < w ==> g[i][j] == p
  {
    seq(h, _ => seq(w, _ => p))
  }

  lemma MulMonotone(x: int, y: int, c: int)
    requires 0 <= x <= y && 0 <= c
    ensures x * c <= y * c
  {
    assert y * c - x * c == (y - x) * c;
  }

  /** A quotient below `k` when the dividend is below `k` divisors. */
  lemma DivBelow(n: int, d: int, k: int)
    requires d > 0 && 0 <= n < k * d
    ensures n / d < k
  {
    assert n == (n / d) * d + n % d;
    if n / d >= k {
      MulMonotone(k, n / d, d);
      assert false;
    }
  }

  /** The rounded blend numerator stays below 256 weights. */
  lemma MixNumeratorBound(sc: Byte, dc: Byte, ws: nat, wd: nat)
    requires ws + wd > 0
    ensures 0 <= sc * ws + dc * wd + (ws + wd) / 2 < 256 * (ws + wd)
  {
    MulMonotone(sc, 255, ws);
    MulMonotone(dc, 255, wd);
    MulMonotone(0, sc, ws);
    MulMonotone(0, dc, wd);
    assert 255 * ws + 255 * wd == 255 * (ws + wd);
    assert 256 * (ws + wd) == 255 * (ws + wd) + (ws + wd);
  }

  /** The colour of a blend of channel values `sc` and `dc` with the integer
      weights `ws` and `wd`, rounded to the nearest value. */
  function Mix(sc: Byte, dc: Byte, ws: nat, wd: nat): (v: Byte)
    requires ws + wd > 0
  {
    var w := ws + wd;
    MixNumeratorBound(sc, dc, ws, wd);
    DivBelow(sc * ws + dc * wd + w / 2, w, 256);
    (sc * ws + dc * wd + w / 2) / w
  }

  /** Source-over compositing of pixel `s` on pixel `d`, as
      `Image.alpha_composite(d, s)` computes it per pixel. A transparent
      source leaves the destination pixel as it is, an opaque source replaces
      it, and a partially transparent one blends the two, the source weighted
      by `255 * s.a` and the destination by `d.a * (255 - s.a)`. */
  function Over(s: Rgba, d: Rgba): (o: Rgba)
    ensures s.a == 255 ==> o == s
    ensures s.a == 0 ==> o == d
    ensures d.a == 255 ==> o.a == 255
  {
    if s.a == 0 then d
    else if s.a == 255 then s
    else
      var ws := 255 * s.a;
      MulMonotone(0, d.a, 255 - s.a);
      var wd := d.a * (255 - s.a);
      Rgba(Mix(s.r, d.r, ws, wd), Mix(s.g, d.g, ws, wd), Mix(s.b, d.b, ws, wd), BlendAlpha(s.a, d.a))
  }

  /** The alpha of a source-over blend, `(255 * sa + da * (255 - sa))`
      rounded in units of 255: opaque over an opaque destination. */
  function BlendAlpha(sa: Byte, da: Byte): (a: Byte)
    ensures da == 255 ==> a == 255
  {
    var n := 255 * sa + da * (255 - sa) + 127;
    OverAlphaBound(sa, da);
    MulMonotone(0, da, 255 - sa);
    DivBelow(n, 255, 256);
    n / 255
  }

  /** The total blend weight never exceeds `255 * 255`, and reaches it
      exactly over an opaque destination. */
  lemma OverAlphaBound(sa: Byte, da: Byte)
    ensures 255 * sa + da * (255 - sa) <= 255 * 255
    ensures da == 255 ==> 255 * sa + da * (255 - sa) == 255 * 255
  {
    MulMonotone(da, 255, 255 - sa);
  }

  /** `Image.alpha_composite(bg, fg)` for two images of the same size. */
  function Composite(bg: seq<seq<Rgba>>, fg: seq<seq<Rgba>>, w: nat, h: nat): (o: seq<seq<Rgba>>)
    requires HasSize(bg, w, h) && HasSize(fg, w, h)
    ensures HasSize(o, w, h)
    ensures forall i, j :: 0 <= i < h && 0 <= j < w && fg[i][j].a == 255 ==> o[i][j] == fg[i][j]
    ensures forall i, j :: 0 <= i < h && 0 <= j < w && fg[i][j].a == 0 ==> o[i][j] == bg[i][j]
    ensures AllOpaque(bg) ==> AllOpaque(o)
  {
    seq(h, i requires 0 <= i < h => seq(w, j requires 0 <= j < w => Over(fg[i][j], bg[i][j])))
  }

  /** The colour channels of every pixel. */
  function Colours(g: seq<seq<Rgba>>): (o: seq<seq<Rgb>>)
    ensures |o| == |g|
    ensures forall i :: 0 <= i < |g| ==> |o[i]| == |g[i]|
    ensures forall i, j :: 0 <= i < |g| && 0 <= j < |g[i]| ==> o[i][j] == g[i][j].Colour()
  {
    seq(|g|, i requires 0 <= i < |g| => seq(|g[i]|, j requires 0 <= j < |g[i]| => g[i][j].Colour()))
  }

  /** One channel of a paste onto white through the mask value `a`: the
      pixel's channel weighted by `a` and white by `255 - a`, rounded to the
      nearest value. */
  function PasteChannel(c: Byte, a: Byte): (v: Byte)
    ensures a == 255 ==> v == c
    ensures a == 0 ==> v == 255
  {
    var n := c * a + 255 * (255 - a) + 127;
    MulMonotone(c, 255, a);
    MulMonotone(0, c, a);
    DivBelow(n, 255, 256);
    n / 255
  }

  /** The colour a pixel leaves on a white canvas when pasted through its
      own alpha. */
  function PastePixel(p: Rgba): (o: Rgb)
    ensures p.a == 255 ==> o == p.Colour()
    ensures p.a == 0 ==> o == White
  {
    Rgb(PasteChannel(p.r, p.a), PasteChannel(p.g, p.a), PasteChannel(p.b, p.a))
  }

  /** An RGBA image pasted onto a new white RGB canvas with its alpha
      channel as the mask, which is how both services prepare a JPEG. */
  function FlattenOnWhite(img: seq<seq<Rgba>>, w: nat, h: nat): (o: seq<seq<Rgb>>)
    requires HasSize(img, w, h)
    ensures HasSize(o, w, h)
    ensures forall i, j :: 0 <= i < h && 0 <= j < w && img[i][j].a == 255 ==>
              o[i][j] == img[i][j].Colour()
    ensures forall i, j :: 0 <= i < h && 0 <= j < w && img[i][j].a == 0 ==> o[i][j] == White
  {
    seq(h, i requires 0 <= i < h => seq(w, j requires 0 <= j < w => PastePixel(img[i][j])))
  }

  /** For an image whose alpha is 0 or 255, as the remover produces, the
      paste onto white agrees with compositing over an opaque white image
      and dropping the alpha channel. */
  lemma FlattenIsCompositeOverWhite(img: seq<seq<Rgba>>, w: nat, h: nat)
    requires HasSize(img, w, h) && BinaryAlpha(img)
    ensures FlattenOnWhite(img, w, h) == Colours(Composite(Fill(Opaque(White), w, h), img, w, h))
  {
    var f := FlattenOnWhite(img, w, h);
    var c := Colours(Composite(Fill(Opaque(White), w, h), img, w, h));
    assert |f| == |c|;
    forall i | 0 <= i < h
      ensures f[i] == c[i]
    {
      assert |f[i]| == |c[i]|;
      forall j | 0 <= j < w
        ensures f[i][j] == c[i][j]
      {
        assert img[i][j].a == 0 || img[i][j].a == 255;
      }
    }
  }

  /** Flattening an opaque image keeps every colour. */
  lemma FlattenOpaque(img: seq<seq<Rgba>>, w: nat, h: nat)
    requires HasSize(img, w, h) && AllOpaque(img)
    ensures FlattenOnWhite(img, w, h) == Colours(img)
  {
    var f := FlattenOnWhite(img, w, h);
    forall i | 0 <= i < h
      ensures f[i] == Colours(img)[i]
    {
      assert |f[i]| == |Colours(img)[i]|;
    }
  }
}
